=== FILE: README.md ===
# EV3 cannon game: command protocol and highscore table

This project models the protocol core of a two-program game: a PC game and a
LEGO EV3 robot that carries a ball cannon. The two ends exchange short text
messages over a socket. The first character of each message is the command
identifier, and an optional decimal payload follows it.

The model covers:

- the PC-side cannon state machine (`EV3Robot`);
- the PC writer and reader threads;
- the robot's writer and its command parser;
- the bounded highscore table.

Threads and sockets are gone from the model. Each loop iteration is a pure
step function over immutable state. Each operation returns its new state
together with the ordered list of its effects: commands queued for the
writer, and notifications to the controller.

Modules:

- `Wire`: Java `int` (`Int32`), `String.valueOf(int)` (`IntToDecimal`) and
  `Integer.parseInt` (`ParseInt`). A `NumberFormatException` is `None`.
- `Outbox`: the queue and last-sent marker that both writer threads share.
  - `Step` is one send iteration with de-duplication.
  - `Drain` and `Flush` run the writer until its queue is empty.
  - `Uniq` is an independent reference definition: it collapses runs of
    equal adjacent elements.
- `PcWriter`: the commands the PC can queue (`Command`), their wire text
  (`Encode`), the enqueue methods (`Issue`) and the buffer clear.
- `Cannon`: `EV3Robot`. The random after-shot angle is a parameter
  constrained to [-85, 85] (`RandomAngle`).
- `PcReader`: one iteration of the PC reader loop, namely de-duplication,
  dispatch on the first character, and the one-time "data received" signal.
  An uncaught exception that ends the thread is `Crashed`.
- `RobotWriter`: the robot's angle-change filter, its acknowledgements, the
  shared send step, and its clear.
- `RobotReader`: `parseCommand` as a map from a message to a list of abstract
  hardware actions. An uncaught exception is `None`. This module also holds
  the round trip from `PcWriter.Encode` to the parser.
- `Highscores`: `addScore`, `firstScoreIndex`, `getLowestScore` and the stable
  descending sort that `writeToFile` performs. Scores are `real`.
- `Session`: the robot state together with the reader and writer threads
  that `EV3Robot` owns. `reset` starts a round by replacing both threads.

Facts about the code that shape the model:

- `setCurrentAngle` does not clamp the stored angle: it stores the report
  as it is, even outside [-85, 85]. `Cannon.OvershootPastLimit` shows an
  angle past the limit being stored.
- `reset` leaves control disabled while both busy flags are clear, so the
  control flag and idleness can differ. The invariant that holds is
  `Cannon.Inv`: control ⇒ idle, and 0 ≤ balls ≤ 6. The controller enables
  control directly after a reset (`Controller.java:513`, `533`), which
  `Cannon.SixShotGame` reflects.
- A score that ties existing entries lands in a different place depending on
  whether the table is full (`Highscores.TiesRankedByFullness`):
  - on a table that is not full, it is appended, and the stable sort keeps it
    after the entries it ties with;
  - on a full table, it is inserted at the first equal score, and so goes
    ahead of them.

Controller constants (`Controller.java:33`, `39`, `46`):

- The source sets `DEBUG = true`, which fakes the connection and makes the
  PC reader skip `readUTF`. The model assumes `DEBUG` is false, that is, a
  real connection to the robot.
- `DEBUG_INFO = true`, so every angle change reaches the angle indicator
  (`ShowAngle`).
- `USE_TIMER = false`, so the timer branches of `setShootingInProgress` and
  `checkForControl` do nothing.

## Model

| member | source | states |
|---|---|---|
| Wire.IntToDecimal | src/game/model/DataWriterThread.java:189-192 | the text of an `int`: a leading '-' exactly for negatives, then only decimal digits |
| Wire.ParseInt | src/robot/DataReaderThread.java:118 | `Integer.parseInt`: succeeds iff the text is an optional '+' or '-' followed by at least one digit and the signed value fits in an `int`; the result is that signed value |
| Wire.ParseIntSignsAndZeros | src/robot/DataReaderThread.java:118 | "+7", "-0012" and "007" parse to 7, -12 and 7 |
| Wire.ParseIntRange | src/robot/DataReaderThread.java:118 | the smallest `int` parses, and one past the largest is rejected |
| Wire.ParseIntRejects | src/robot/DataReaderThread.java:118 | a bare sign, the empty string and a non-digit are rejected |
| Wire.DigitsOfNat | src/game/model/DataWriterThread.java:189-192 | the digits rendered for a natural number read back as that number |
| Wire.ParseRendered | src/robot/DataReaderThread.java:118 | parsing the decimal text of any Java `int` gives the same `int` back |
| Wire.ParseTaggedPayload | src/game/model/DataReaderThread.java:124-134 | a message made of an identifier and a rendered `int` starts with the identifier, and its payload parses to the `int` |
| Outbox.Empty | src/game/model/DataWriterThread.java:43-49 | a new writer has an empty buffer and last-sent marker "!" |
| Outbox.Push | src/game/model/DataWriterThread.java:132-135 | an enqueue appends exactly one message at the tail and leaves the marker alone |
| Outbox.Step | src/game/model/DataWriterThread.java:55-108 | an empty buffer is left as it is; otherwise the head is removed, and it is written and becomes the marker exactly when it differs from the marker |
| Outbox.Drain | src/game/model/DataWriterThread.java:60-105 | running the writer until the buffer is empty: no two consecutive writes are equal, the first differs from the marker, and the writes are a subsequence of the queue in FIFO order |
| Outbox.DrainIsUniq | src/game/model/DataWriterThread.java:60-105 | what the writer transmits equals the independent run-collapse `Uniq` of marker-then-queue, minus the marker |
| Outbox.Flush | src/game/model/DataWriterThread.java:55-108 | the writer loop empties its buffer and transmits exactly the run-collapsed queue |
| Outbox.Uniq | src/game/model/DataWriterThread.java:60-105 | the reference de-duplication keeps the first element and is never longer than its input |
| Outbox.UniqCons | src/game/model/DataWriterThread.java:65-70 | prepending an element equal to the head is absorbed; a different one is kept |
| Outbox.RepeatOfLastSentDropped | src/game/model/DataWriterThread.java:65-104 | de-duplication is against the last message written: the same message queued later, after the buffer ran empty, is still dropped |
| Outbox.NonAdjacentRepeatsSent | src/game/model/DataWriterThread.java:60-105 | repeats that are not adjacent are all written |
| Outbox.ClearedSendsNext | src/game/model/DataWriterThread.java:197-201 | after a clear, any message other than "!" is written by the next step |
| PcWriter.Encode | src/game/model/DataWriterThread.java:132-223 | each command's text starts with its identifier and is never "!"; a countdown of 0 to 9 is its single digit |
| PcWriter.PayloadParsesBack | src/game/model/DataWriterThread.java:189-213 | the payload of "a"+n and "i"+n parses back, with `Integer.parseInt`, to n |
| PcWriter.New | src/game/model/DataWriterThread.java:43-49 | a fresh writer: empty buffer, marker "!" |
| PcWriter.Issue | src/game/model/DataWriterThread.java:132-223 | every command method appends exactly its encoded string after the existing buffer and leaves the marker unchanged |
| PcWriter.ClearBuffer | src/game/model/DataWriterThread.java:197-201 | the clear empties the buffer and resets the marker to "!" |
| PcWriter.ClearThenIssueSends | src/game/model/DataWriterThread.java:197-201 | after a clear, the next command queued is always transmitted |
| PcWriter.DoubleIssueSentOnce | src/game/model/DataWriterThread.java:60-105 | the same command queued twice in a row is transmitted once |
| PcWriter.LeftLeftStop | src/game/model/DataWriterThread.java:60-105 | left, left, stop on a fresh writer transmits "l" then "s" |
| Cannon.New | src/game/model/EV3Robot.java:122-131 | the constructor: angle 0, six balls, both busy flags clear, control disabled |
| Cannon.Reset | src/game/model/EV3Robot.java:295-303 | the robot fields after `reset` are the constructor's, whatever they were before |
| Cannon.LimitGuards | src/game/model/EV3Robot.java:273-286 | `isNotAtMaxAngle` and `isNotAtMinAngle` are exactly when a forced left or right turn starts; the cannon is never at both limits, and after a reset it is at neither |
| Cannon.StopTurning | src/game/model/EV3Robot.java:537-542 | the one effect of `stopTurning` is that the robot is sent "s" |
| Cannon.CheckBalls | src/game/model/EV3Robot.java:607-615 | round-over is signalled iff no ball is left and nothing is in progress, and nothing else happens |
| Cannon.SendMaxIRDistance | src/game/model/EV3Robot.java:779-782 | the robot is sent "i15", the ball distance threshold |
| Cannon.SendMinRedValue | src/game/model/EV3Robot.java:784-787 | the robot is sent "c0.0095", the red threshold as `Double.toString` renders it |
| Cannon.ClearWriteBuffer | src/game/model/EV3Robot.java:797-800 | the robot is sent "z", which clears its writer |
| Cannon.SetRobotControlEnabled | src/game/model/EV3Robot.java:316-319 | sets the control flag to the argument and changes nothing else |
| Cannon.SetCurrentAngle | src/game/model/EV3Robot.java:345-382 | the angle becomes the report unclamped, and nothing else changes; a stop is queued iff the old angle is at or past a limit and the report moves further out; the indicator is updated iff the angle changed |
| Cannon.ForceTurnLeft | src/game/model/EV3Robot.java:392-416 | turns left (queues "l") iff below the upper limit, else queues a stop |
| Cannon.TurnLeft | src/game/model/EV3Robot.java:426-457 | not ready: nothing queued, false; ready and below 85: "l", true; ready at or above 85: "s", false |
| Cannon.ForceTurnRight | src/game/model/EV3Robot.java:508-532 | turns right (queues "r") iff above the lower limit, else queues a stop |
| Cannon.TurnRight | src/game/model/EV3Robot.java:467-498 | mirror of `TurnLeft` with "r" and the lower limit -85 |
| Cannon.CheckForControl | src/game/model/EV3Robot.java:719-737 | control becomes "both flags clear"; round-over is signalled iff both flags are clear and no ball is left; nothing else changes |
| Cannon.SetAngleTurnInProgress | src/game/model/EV3Robot.java:702-709 | sets the turn flag; afterwards control equals "both flags clear"; round-over iff the flag is cleared while not shooting and out of balls |
| Cannon.ForceTurnToAngle | src/game/model/EV3Robot.java:638-643 | always marks an angle turn in progress, disables control and queues "a"+n |
| Cannon.TurnToAngle | src/game/model/EV3Robot.java:624-636 | a no-op while an angle turn is in progress, otherwise as `ForceTurnToAngle` |
| Cannon.TurnToRandomAngle | src/game/model/EV3Robot.java:649-658 | starts a turn to an angle within [-85, 85] |
| Cannon.ShotStarted | src/game/model/EV3Robot.java:668-684 | `setShootingInProgress(true)`: both busy flags set, control disabled, a random-angle turn queued |
| Cannon.ShotFinished | src/game/model/EV3Robot.java:668-684 | `setShootingInProgress(false)`: the shooting flag is cleared; control equals "no angle turn"; round-over iff no turn is running and no ball is left |
| Cannon.ModBallsLeft | src/game/model/EV3Robot.java:576-580 | adds n to the ball count, reports the new count, and changes nothing else |
| Cannon.Shoot | src/game/model/EV3Robot.java:547-601 | ready with a ball: fire command, one ball less, new count shown, both flags set, control off, random turn queued; otherwise state and queue untouched |
| Cannon.ShootCannonHigh | src/game/model/EV3Robot.java:547-566 | the shot described for `Shoot`, with "h" |
| Cannon.ShootCannonLow | src/game/model/EV3Robot.java:585-601 | the shot described for `Shoot`, with "w" |
| Cannon.ReadyIsControl | src/game/model/EV3Robot.java:744-749 | under the invariant, `isReady` is the control flag |
| Cannon.InvPreserved | src/game/model/EV3Robot.java:295-737 | every operation keeps "control ⇒ idle, 0 ≤ balls ≤ 6", except enabling control directly while busy |
| Cannon.ControlRaisedOnlyByAcks | src/game/model/EV3Robot.java:316-319 | control is switched on only by the direct setter or by clearing a busy flag, and in the second case both flags are then clear |
| Cannon.EndGameOnlyFromCheck | src/game/model/EV3Robot.java:607-615 | round-over is signalled by an operation iff it clears a busy flag and leaves both flags clear with no ball left |
| Cannon.BallsNeverNegative | src/game/model/EV3Robot.java:547-601 | no operation takes a non-negative ball count below zero |
| Cannon.RoundOutcome | src/game/model/EV3Robot.java:547-737 | a shot plus both acknowledgements, in either order, costs one ball, leaves the robot ready at the same angle, and signals round-over iff it was the last ball (the controller's turn back to 0 that follows is under Left out) |
| Cannon.PlayOutAllBalls | src/game/model/EV3Robot.java:607-615 | shooting out every ball empties the cannon and signals round-over exactly once (the state before the controller's reaction) |
| Cannon.SixShotGame | src/game/controller/Controller.java:513-533 | a game started as the controller does it ends after six shots with exactly one round-over |
| Cannon.OvershootPastLimit | src/game/model/EV3Robot.java:345-382 | an angle report jumping past the limit is stored as reported without a stop; later turns and reports further out queue stops |
| Session.Reset | src/game/model/EV3Robot.java:295-307 | `reset`: the robot fields of a new round, plus a new writer (empty, marker "!") and a new reader (markers " " and "-", nothing signalled) |
| Session.ResetForgetsHistory | src/game/model/EV3Robot.java:193-205 | after a reset the first command queued is written even if it repeats the last one before, nothing queued earlier is written, and the new reader signals "data received" again |
| Cannon.EndGamesAppend | src/game/model/EV3Robot.java:607-615 | the round-over count of concatenated effects is the sum of the counts |
| Cannon.NoEndGames | src/game/model/EV3Robot.java:607-615 | effects without a round-over count zero |
| PcReader.New | src/game/model/DataReaderThread.java:97-106 | a fresh reader: input " ", previous input "-", nothing signalled |
| PcReader.ClearBufferData | src/game/model/DataReaderThread.java:267-272 | the clear restores the initial markers and keeps the "data received" flag |
| PcReader.Lift | src/game/model/DataReaderThread.java:129-161 | the robot's effects are handed on one for one, in order |
| PcReader.Dispatch | src/game/model/DataReaderThread.java:124-161 | fails iff an 'a' payload is not an `int`; 'a', 'f' and 't' give the robot and the effects of `setCurrentAngle`, `setShootingInProgress(false)` and `setAngleTurnInProgress(false)`, handed on in order; other ids leave the robot unchanged; unknown ids and 'z', ' ', '-' hand on nothing; 'i' and 'c' hand their payload text to the player's scoring |
| PcReader.Step | src/game/model/DataReaderThread.java:112-167 | a repeat changes neither robot nor marker; the thread dies iff a new input is empty or carries a malformed angle (float payloads: see Left out); a new input's robot and signals are exactly the dispatch's, followed by "data received" iff it had not been signalled; any new input becomes the previous input |
| PcReader.Run | src/game/model/DataReaderThread.java:112-195 | over successive reads the thread either dies at a crash or survives with the last input as previous input and "data received" signalled |
| PcReader.AngleReportDispatched | src/game/model/DataReaderThread.java:133-135 | "a"+n reaches `setCurrentAngle(n)`: the robot it produces, and its effects handed on in order, with a stop sent iff the old angle is at or past a limit and n moves further out |
| PcReader.AcksDispatched | src/game/model/DataReaderThread.java:142-147 | "f" and "t" reach the two flag setters: the robot they produce, and their effects handed on in order |
| PcReader.AckEndsRound | src/game/model/DataReaderThread.java:142-147 | an acknowledgement ends the round (round-over reaches the controller) iff the other busy flag is clear and no ball is left |
| PcReader.ShotAckWhileTurning | src/game/model/DataReaderThread.java:142-147 | a shot acknowledgement during a turn keeps control off, and the turn acknowledgement then enables it |
| PcReader.DataReceivedCountAppend | src/game/model/DataReaderThread.java:163-167 | signal counts add over concatenation |
| PcReader.StepSignalsCount | src/game/model/DataReaderThread.java:163-167 | one surviving iteration signals "data received" once if not yet signalled, else never |
| PcReader.NoDataReceived | src/game/model/DataReaderThread.java:163-167 | signals without "data received" count zero |
| PcReader.DataReceivedAtMostOnce | src/game/model/DataReaderThread.java:163-167 | over any input sequence "data received" is signalled at most once per reader, and exactly once if the reader survives at least one input |
| RobotWriter.New | src/robot/DataWriterThread.java:47-69 | both constructors: empty queue, both markers "!" |
| RobotWriter.WriteAngle | src/robot/DataWriterThread.java:146-155 | queues "a"+s iff s differs from the previous sample, and records s |
| RobotWriter.FinishedShooting | src/robot/DataWriterThread.java:193-196 | appends exactly one "f" and changes nothing else |
| RobotWriter.FinishedTurning | src/robot/DataWriterThread.java:201-204 | appends exactly one "t" and changes nothing else |
| RobotWriter.ClearBuffer | src/robot/DataWriterThread.java:206-212 | empties the queue and resets both markers: the initial state |
| RobotWriter.RunIteration | src/robot/DataWriterThread.java:91-141 | the sampled tacho text becomes the angle marker; after the sample, an empty queue writes nothing, otherwise the head is removed and written exactly when it differs from the last write, becoming the new send marker |
| RobotWriter.AngleReportsAreChanges | src/robot/DataWriterThread.java:146-155 | the angle reports queued over a series of samples are exactly the run-collapsed samples, each tagged with "a" |
| RobotWriter.TagCons | src/robot/DataWriterThread.java:146-155 | tagging distributes over a prepended sample |
| RobotWriter.ClearedReportsAngle | src/robot/DataWriterThread.java:206-212 | after a clear, the next iteration reports the angle even if it did not change |
| RobotReader.ParseCommand | src/robot/DataReaderThread.java:85-157 | fails iff the input is empty or an 'a'/'i' payload is not an `int`; a digit k in 0..5 plays tone (1000-100k, 350-50k); unknown ids do nothing; a shot ack is queued iff the id is h or w, a turn ack iff it is a |
| RobotReader.WriterEffect | src/robot/DataReaderThread.java:85-157 | `ApplyToWriter`: without a clear, the actions append exactly their "f"/"t" acknowledgements in order and change nothing else; after a clear both markers are "!" |
| RobotReader.HardwareOnly | src/robot/DataReaderThread.java:91-102 | actions that are not acknowledgements or clears leave the robot's writer unchanged |
| RobotReader.FireAcknowledged | src/robot/DataReaderThread.java:103-116 | 'h'/'w' first stop turning, rotate the shooter -1080/+1080, and queue exactly one "f" |
| RobotReader.AngleAcknowledged | src/robot/DataReaderThread.java:117-121 | "a"+n rotates to n, stops, and queues exactly one "t" |
| RobotReader.MotorCommandsSilent | src/robot/DataReaderThread.java:91-102 | 'l', 'r', 's' drive the turning motor forward, backward, stop, and queue nothing |
| RobotReader.ClearCommand | src/robot/DataReaderThread.java:150-152 | 'z' resets the robot's writer to its initial state |
| RobotReader.CommandRoundTrip | src/robot/DataReaderThread.java:85-157 | every command the PC writer encodes (payloads in range) is parsed by the robot into the action it stands for |
| RobotReader.ToneRoundTrip | src/robot/DataReaderThread.java:122-139 | the countdown k in 0..5 plays the tone for k |
| RobotReader.AngleRoundTrip | src/robot/DataReaderThread.java:117-121 | the PC's "a"+n turns the robot to exactly n and acknowledges |
| RobotReader.DistanceRoundTrip | src/robot/DataReaderThread.java:140-142 | the PC's "i"+n sets the IR distance to exactly n |
| RobotReader.RedRoundTrip | src/robot/DataReaderThread.java:143-146 | the PC's "c"+d hands over the threshold text d unchanged |
| RobotReader.ParsesAs | src/robot/DataReaderThread.java:117-142 | a well-formed 'a' or 'i' message parses to its rotate-and-acknowledge or distance action |
| RobotReader.TwoDigitCountdownReadAsFirstDigit | src/robot/DataReaderThread.java:122-139 | a countdown of 10 is read as the tone for 1 |
| Highscores.CountAbove | src/game/model/HighscoreList.java:129-151 | the number of entries scoring above v is at most the table size |
| Highscores.DescendingPairs | src/game/model/HighscoreList.java:224-235 | in a sorted table every entry scores at least as much as every later one |
| Highscores.DescendingPrefix | src/game/model/HighscoreList.java:99-100 | a prefix of a sorted table is sorted |
| Highscores.FirstScoreIndex | src/game/model/HighscoreList.java:129-151 | -1 or an index below size-1; a found index holds the score and every earlier entry is higher; -1 means every equal entry before the last is preceded by a lower one |
| Highscores.ScanFrom | src/game/model/HighscoreList.java:132-150 | the scan loop from a given index, with the same guarantees restricted to the indices it visits |
| Highscores.FirstScoreIndexSorted | src/game/model/HighscoreList.java:129-151 | on a sorted table the scan succeeds iff an entry other than the last has the score, and then returns the number of higher entries |
| Highscores.GetLowestScore | src/game/model/HighscoreList.java:153-159 | the score of the last entry, which on a sorted table is at most every score in it |
| Highscores.LowestScoreIsMinimum | src/game/model/HighscoreList.java:76-81 | on a sorted table the score `addScore` compares against is the minimum score in the table |
| Highscores.Insert | src/game/model/HighscoreList.java:224-235 | one insertion step of the sort adds exactly one element and puts x or the old head first |
| Highscores.InsertIsPermutation | src/game/model/HighscoreList.java:224-235 | an insertion step adds x and nothing else |
| Highscores.InsertSorted | src/game/model/HighscoreList.java:224-235 | inserting into a sorted table keeps it sorted |
| Highscores.SortDescending | src/game/model/HighscoreList.java:224-235 | the sort keeps the table's length |
| Highscores.SortIsPermutation | src/game/model/HighscoreList.java:224-235 | the sort only reorders: same multiset of entries |
| Highscores.SortIsSorted | src/game/model/HighscoreList.java:224-235 | the sort's result is in non-increasing score order |
| Highscores.InsertKeepsTies | src/game/model/HighscoreList.java:224-235 | an insertion step puts x before the entries it ties with and keeps their order |
| Highscores.SortIsStable | src/game/model/HighscoreList.java:224-235 | `Collections.sort` is stable: entries of equal score keep their relative order |
| Highscores.SortedUnchanged | src/game/model/HighscoreList.java:224-235 | sorting an already sorted table changes nothing |
| Highscores.SortCons | src/game/model/HighscoreList.java:224-235 | sorting a table with a new head inserts that head into the sorted rest |
| Highscores.CountAboveSplits | src/game/model/HighscoreList.java:129-151 | in a sorted table the entries above v form a prefix whose length is their count |
| Highscores.NoneAbove | src/game/model/HighscoreList.java:129-151 | a table with no entry above v counts zero |
| Highscores.CountAboveIs | src/game/model/HighscoreList.java:129-151 | in a sorted table, the index of the first entry not above v is the number of entries above v |
| Highscores.InsertPosition | src/game/model/HighscoreList.java:224-235 | in a sorted table, insertion puts x right after the entries that score more |
| Highscores.PlaceAfter | src/game/model/HighscoreList.java:110-116 | the placement of an appended entry adds exactly one element |
| Highscores.SortAppended | src/game/model/HighscoreList.java:110-116 | sorting a sorted table with one entry appended places it after every entry it ties with |
| Highscores.InsertAndTrim | src/game/model/HighscoreList.java:83-102 | the insertion at the found index or at 0, then the trim, leaves min(size+1, 20) entries |
| Highscores.AddScore | src/game/model/HighscoreList.java:70-118 | accepted iff the table has fewer than 20 entries or the score reaches the last one; a rejection leaves the table unchanged; an accepted score leaves it sorted with size+1 entries, or 20 when it was full |
| Highscores.AddScoreContents | src/game/model/HighscoreList.java:70-118 | an accepted score leaves a permutation of the old entries plus the new one, except that on a full table the old last entry is the one removed |
| Highscores.TrimDropsLast | src/game/model/HighscoreList.java:83-102 | on a table of exactly twenty, the trim removes the entry that was last, wherever the new entry went |
| Highscores.AddScoreNotFull | src/game/model/HighscoreList.java:110-116 | on a sorted table that is not full, the new entry goes after every entry it ties with |
| Highscores.AddScoreFull | src/game/model/HighscoreList.java:76-116 | on a full sorted table with a high enough score, the last entry goes and the new one goes in ahead of its ties |
| Highscores.TiesRankedByFullness | src/game/model/HighscoreList.java:83-116 | a tying score ranks after its ties on a table that is not full, and before them on a full one |
| Highscores.AllEqualDescending | src/game/model/HighscoreList.java:224-235 | a table whose entries all have the same score is sorted |
| Highscores.FullKeepsBest | src/game/model/HighscoreList.java:76-103 | on a full sorted table, everything after an accepted score scores at least the old lowest score |

## Left out

- Socket and stream I/O: `readUTF`/`writeUTF` framing, opening and closing connections. Messages are plain strings.
- Threads: start/stop flags, `Thread.sleep` pacing, and the controller's busy-wait loops. Each loop iteration is one pure step. Interleavings of the PC threads are not modelled.
- `SocketException` handling in the writers and readers (teardown through `terminateConnection`/`disconnect`). It is I/O plumbing.
- `Controller.DEBUG` branches, as test scaffolding: `debugModAngle`, the fake connection, and the PC reader skipping `readUTF`.
- The timer and `scoreShot`. The timer branches are gated by `USE_TIMER`, which is false. `scoreShot` is gated by `timer != null` (`EV3Robot.java:554`, `592`), and the timer stays null: `EV3Robot.java:127` sets it to null, and `303` comments out `createNewTimer()`.
- Floating-point logic:
  - the random angle formula (`Math.round(170 * Math.random()) - 85`), which becomes the `RandomAngle` parameter;
  - `ScoreMachine`, `toPercentage`, and the indicator clamping;
  - the robot's `writeIR`/`writeColor`.
- RobotWriter.RunIteration: the `writeColor` call each iteration makes (its float reading) is not modelled, only the angle sample and the send.
- PcReader.Dispatch: the 'i' payload is handed on unparsed. The `NumberFormatException` that `Float.parseFloat` can throw on a malformed distance is not modelled.
- PcReader.Step: for the same reason, a malformed 'i' payload does not end the modelled reader thread. A new 'c' input reaches `Player.scoreColor`, which runs `Double.parseDouble` on the payload while the game is on; the reader catches only `SocketException` and `IOException`, so a malformed 'c' payload also ends the thread in the source. The model hands the text on and does not crash.
- Session.Reset: `reset` itself does not stop the previous reader and writer threads (the call is commented out, `EV3Robot.java:305`). `Controller.endGame` has already stopped them before the next game can start (`Controller.java:579-580`, `595-596`), so the model replaces them. An old reader still blocked in `readUTF` may take one more message; that falls under the thread interleavings left out above.
- RobotReader.ParseCommand: the 'c' payload is kept as text. The `Double.parseDouble` failure on a malformed red threshold is not modelled.
- `Controller.endGame`'s reaction is represented by the `EndGame` effect only. In the source it runs on the PC reader thread and calls `robot.forceTurnToAngle(0)` (`Controller.java:562-597`), so after the last ball the robot is turning back to 0 with control disabled. `Cannon.RoundOutcome` and `Cannon.PlayOutAllBalls` end in the ready state before that reaction.
- Highscore persistence: `readFromFile` and the serialization part of `writeToFile`. Only the sort at the start of `writeToFile` is modelled.
- Highscores.SortDescending: `Double.compare` is modelled as the comparison of reals, so NaN and the sign of zero are not modelled.
- Highscores: the player's name is copied verbatim; `Player` and `HighscoreListRow` are not part of this model.
- Hardware classes (motors, sensors, `Sound`): their calls appear only as abstract `RobotReader.Action` values.
- `ParseInt` accepts only ASCII digits. Java also accepts other Unicode decimal digits; the PC never sends them.
- The JavaFX user interface and its field validators.

=== FILE: cannon.dfy ===
/** The PC-side model of the cannon robot (`game.model.EV3Robot`): the angle,
    the ball count, the two busy flags and the "player may control the robot"
    flag, and the commands each operation queues for the writer. Every
    operation is a pure transition returning the new state together with the
    ordered list of its effects: commands handed to the writer and
    notifications to the controller. The random angle of the after-shot turn
    is a parameter. */
module Cannon {
  import PcWriter

  const LIMIT_ANGLE_MIN: int := -85
  const LIMIT_ANGLE_MAX: int := 85
  const MAX_BALLS: int := 6
  /** `ScoreMachine.MAX_BALL_IR_DISTANCE`. */
  const MAX_BALL_IR_DISTANCE: int := 15
  /** `Double.toString(ScoreMachine.MINIMUM_RED_VALUE)`. */
  const MINIMUM_RED_VALUE_TEXT: string := "0.0095"

  /** The outcome of `Math.round(170 * Math.random()) - 85`. */
  type RandomAngle = x: int | LIMIT_ANGLE_MIN <= x <= LIMIT_ANGLE_MAX

  datatype Robot = Robot(
    currentAngle: int,
    ballsLeft: int,
    shootingInProgress: bool,
    angleTurnInProgress: bool,
    robotControlEnabled: bool)

  datatype Effect =
    | Send(command: PcWriter.Command)   // queued on the writer
    | ShowAngle(angle: int)             // controller.updateCannonAngleIndicator
    | ShowBallsLeft(balls: int)         // controller.setCannonballsLeft
    | EndGame                           // controller.endGame

  datatype Outcome = Outcome(robot: Robot, effects: seq<Effect>)

  /** The result of a turn request: the method's boolean result and effects;
      a turn request never changes the state. */
  datatype Turn = Turn(turning: bool, effects: seq<Effect>)

  /** The constructor: angle 0, a full cannon, nothing in progress, control
      disabled. */
  function New(): (r: Robot)
    ensures r.currentAngle == 0 && r.ballsLeft == MAX_BALLS
    ensures !r.shootingInProgress && !r.angleTurnInProgress && !r.robotControlEnabled
  {
    Robot(0, MAX_BALLS, false, false, false)
  }

  /** `reset`: the robot state of a new round, whatever the old one was. */
  function Reset(r: Robot): (r': Robot)
    ensures r'.currentAngle == 0 && r'.ballsLeft == MAX_BALLS
    ensures !r'.shootingInProgress && !r'.angleTurnInProgress && !r'.robotControlEnabled
    ensures r' == New()
  {
    Robot(0, MAX_BALLS, false, false, false)
  }

  predicate IsNotAtMaxAngle(r: Robot) {
    r.currentAngle < LIMIT_ANGLE_MAX
  }

  predicate IsNotAtMinAngle(r: Robot) {
    r.currentAngle > LIMIT_ANGLE_MIN
  }

  predicate IsReady(r: Robot) {
    !r.shootingInProgress && !r.angleTurnInProgress && r.robotControlEnabled
  }

  /** The one operation that sets the control flag directly. */
  function SetRobotControlEnabled(r: Robot, v: bool): (r': Robot)
    ensures r'.robotControlEnabled == v
    ensures r'.(robotControlEnabled := r.robotControlEnabled) == r
  {
    r.(robotControlEnabled := v)
  }

  /** `stopTurning`: always allowed; the robot receives "s". */
  function StopTurning(): (e: seq<Effect>)
    ensures |e| == 1 && e[0].Send? && PcWriter.Encode(e[0].command) == "s"
  {
    [Send(PcWriter.StopTurning)]
  }

  /** `setCurrentAngle`: an angle report from the robot. The angle is stored
      as reported, without clamping; a stop is queued when the cannon is
      already at a limit and the report moves further past it. */
  function SetCurrentAngle(r: Robot, n: int): (o: Outcome)
    ensures o.robot.currentAngle == n
    ensures o.robot.(currentAngle := r.currentAngle) == r
    ensures Send(PcWriter.StopTurning) in o.effects <==>
              (r.currentAngle >= LIMIT_ANGLE_MAX && n > r.currentAngle) ||
              (r.currentAngle <= LIMIT_ANGLE_MIN && n < r.currentAngle)
    ensures ShowAngle(n) in o.effects <==> n != r.currentAngle
    ensures forall e :: e in o.effects ==> e == Send(PcWriter.StopTurning) || e == ShowAngle(n)
    ensures |o.effects| <= 2
  {
    var stop :=
      if !IsNotAtMaxAngle(r) then n > r.currentAngle
      else if !IsNotAtMinAngle(r) then n < r.currentAngle
      else false;
    Outcome(r.(currentAngle := n),
            (if stop then StopTurning() else []) + (if n != r.currentAngle then [ShowAngle(n)] else []))
  }

  /** `forceTurnLeft`: no readiness check. */
  function ForceTurnLeft(r: Robot): (t: Turn)
    ensures t.turning <==> r.currentAngle < LIMIT_ANGLE_MAX
    ensures t.effects == [Send(if t.turning then PcWriter.TurnLeft else PcWriter.StopTurning)]
  {
    if IsNotAtMaxAngle(r) then Turn(true, [Send(PcWriter.TurnLeft)]) else Turn(false, StopTurning())
  }

  /** `turnLeft`: refused silently while the robot is not ready, refused
      with a stop at the upper limit. */
  function TurnLeft(r: Robot): (t: Turn)
    ensures !IsReady(r) ==> !t.turning && t.effects == []
    ensures IsReady(r) && r.currentAngle < LIMIT_ANGLE_MAX ==>
              t.turning && t.effects == [Send(PcWriter.TurnLeft)]
    ensures IsReady(r) && r.currentAngle >= LIMIT_ANGLE_MAX ==>
              !t.turning && t.effects == [Send(PcWriter.StopTurning)]
  {
    if IsReady(r) then ForceTurnLeft(r) else Turn(false, [])
  }

  /** `forceTurnRight`: no readiness check. */
  function ForceTurnRight(r: Robot): (t: Turn)
    ensures t.turning <==> r.currentAngle > LIMIT_ANGLE_MIN
    ensures t.effects == [Send(if t.turning then PcWriter.TurnRight else PcWriter.StopTurning)]
  {
    if IsNotAtMinAngle(r) then Turn(true, [Send(PcWriter.TurnRight)]) else Turn(false, StopTurning())
  }

  /** `turnRight`: the mirror image of `turnLeft`. */
  function TurnRight(r: Robot): (t: Turn)
    ensures !IsReady(r) ==> !t.turning && t.effects == []
    ensures IsReady(r) && r.currentAngle > LIMIT_ANGLE_MIN ==>
              t.turning && t.effects == [Send(PcWriter.TurnRight)]
    ensures IsReady(r) && r.currentAngle <= LIMIT_ANGLE_MIN ==>
              !t.turning && t.effects == [Send(PcWriter.StopTurning)]
  {
    if IsReady(r) then ForceTurnRight(r) else Turn(false, [])
  }

  /** `checkBalls`: the round is over once the cannon is empty and idle. */
  function CheckBalls(r: Robot): (e: seq<Effect>)
    ensures EndGame in e <==> r.ballsLeft < 1 && !r.shootingInProgress && !r.angleTurnInProgress
    ensures forall x :: x in e ==> x == EndGame
  {
    if r.ballsLeft < 1 && !r.shootingInProgress && !r.angleTurnInProgress then [EndGame] else []
  }

  /** `checkForControl`: re-derive the control flag from the busy flags. */
  function CheckForControl(r: Robot): (o: Outcome)
    ensures o.robot.robotControlEnabled == (!r.shootingInProgress && !r.angleTurnInProgress)
    ensures o.robot.(robotControlEnabled := r.robotControlEnabled) == r
    ensures EndGame in o.effects <==>
              !r.shootingInProgress && !r.angleTurnInProgress && r.ballsLeft < 1
    ensures o.effects == [] || o.effects == [EndGame]
  {
    if !r.shootingInProgress && !r.angleTurnInProgress then
      Outcome(r.(robotControlEnabled := true), CheckBalls(r))
    else
      Outcome(r.(robotControlEnabled := false), [])
  }

  /** `setAngleTurnInProgress`. */
  function SetAngleTurnInProgress(r: Robot, v: bool): (o: Outcome)
    ensures o.robot.angleTurnInProgress == v
    ensures o.robot.shootingInProgress == r.shootingInProgress
    ensures o.robot.currentAngle == r.currentAngle && o.robot.ballsLeft == r.ballsLeft
    ensures o.robot.robotControlEnabled == (!o.robot.shootingInProgress && !o.robot.angleTurnInProgress)
    ensures EndGame in o.effects <==> !v && !r.shootingInProgress && r.ballsLeft < 1
    ensures o.effects == [] || o.effects == [EndGame]
  {
    CheckForControl(r.(angleTurnInProgress := v))
  }

  /** `forceTurnToAngle`: always starts an angle turn. */
  function ForceTurnToAngle(r: Robot, n: int): (o: Outcome)
    ensures o.robot.angleTurnInProgress && !o.robot.robotControlEnabled
    ensures o.robot.shootingInProgress == r.shootingInProgress
    ensures o.robot.currentAngle == r.currentAngle && o.robot.ballsLeft == r.ballsLeft
    ensures o.effects == [Send(PcWriter.TurnToAngle(n))]
  {
    var t := SetAngleTurnInProgress(r, true);
    Outcome(t.robot, t.effects + [Send(PcWriter.TurnToAngle(n))])
  }

  /** `turnToAngle(int)`: ignored while an angle turn is already running. */
  function TurnToAngle(r: Robot, n: int): (o: Outcome)
    ensures r.angleTurnInProgress ==> o == Outcome(r, [])
    ensures !r.angleTurnInProgress ==>
              o.robot.angleTurnInProgress && !o.robot.robotControlEnabled &&
              o.effects == [Send(PcWriter.TurnToAngle(n))]
    ensures o.robot.shootingInProgress == r.shootingInProgress
    ensures o.robot.currentAngle == r.currentAngle && o.robot.ballsLeft == r.ballsLeft
  {
    if !r.angleTurnInProgress then ForceTurnToAngle(r, n) else Outcome(r, [])
  }

  /** `turnToAngle()`: turn to a random angle within the limits. */
  function TurnToRandomAngle(r: Robot, rand: RandomAngle): (o: Outcome)
    ensures o.robot.angleTurnInProgress && !o.robot.robotControlEnabled
    ensures o.robot.shootingInProgress == r.shootingInProgress
    ensures o.robot.currentAngle == r.currentAngle && o.robot.ballsLeft == r.ballsLeft
    ensures |o.effects| == 1 && o.effects[0].Send? && o.effects[0].command.TurnToAngle?
    ensures LIMIT_ANGLE_MIN <= o.effects[0].command.angle <= LIMIT_ANGLE_MAX
  {
    ForceTurnToAngle(r, rand)
  }

  /** `setShootingInProgress(true)`: a shot is followed by a turn to a random
      angle. */
  function ShotStarted(r: Robot, rand: RandomAngle): (o: Outcome)
    ensures o.robot.shootingInProgress && o.robot.angleTurnInProgress
    ensures !o.robot.robotControlEnabled
    ensures o.robot.currentAngle == r.currentAngle && o.robot.ballsLeft == r.ballsLeft
    ensures o.effects == [Send(PcWriter.TurnToAngle(rand))]
  {
    TurnToRandomAngle(r.(shootingInProgress := true), rand)
  }

  /** `setShootingInProgress(false)`: the robot reported the shot done. */
  function ShotFinished(r: Robot): (o: Outcome)
    ensures !o.robot.shootingInProgress
    ensures o.robot.angleTurnInProgress == r.angleTurnInProgress
    ensures o.robot.currentAngle == r.currentAngle && o.robot.ballsLeft == r.ballsLeft
    ensures o.robot.robotControlEnabled == !o.robot.angleTurnInProgress
    ensures EndGame in o.effects <==> !r.angleTurnInProgress && r.ballsLeft < 1
    ensures o.effects == [] || o.effects == [EndGame]
  {
    CheckForControl(r.(shootingInProgress := false))
  }

  /** `modBallsLeft`. */
  function ModBallsLeft(r: Robot, n: int): (o: Outcome)
    ensures o.robot.ballsLeft == r.ballsLeft + n
    ensures o.robot.(ballsLeft := r.ballsLeft) == r
    ensures o.effects == [ShowBallsLeft(r.ballsLeft + n)]
  {
    var b := r.ballsLeft + n;
    Outcome(r.(ballsLeft := b), [ShowBallsLeft(b)])
  }

  /** The common body of `shootCannonHigh` and `shootCannonLow`. */
  function Shoot(r: Robot, fire: PcWriter.Command, rand: RandomAngle): (o: Outcome)
    ensures IsReady(r) && r.ballsLeft > 0 ==>
              && o.robot.ballsLeft == r.ballsLeft - 1
              && o.robot.shootingInProgress && o.robot.angleTurnInProgress
              && !o.robot.robotControlEnabled
              && o.robot.currentAngle == r.currentAngle
              && o.effects == [Send(fire), ShowBallsLeft(r.ballsLeft - 1), Send(PcWriter.TurnToAngle(rand))]
    ensures !(IsReady(r) && r.ballsLeft > 0) ==> o == Outcome(r, [])
  {
    if IsReady(r) && r.ballsLeft > 0 then
      var m := ModBallsLeft(r, -1);
      var s := ShotStarted(m.robot, rand);
      Outcome(s.robot, [Send(fire)] + m.effects + s.effects)
    else
      Outcome(r, [])
  }

  function ShootCannonHigh(r: Robot, rand: RandomAngle): (o: Outcome)
    ensures IsReady(r) && r.ballsLeft > 0 ==>
              && o.robot.ballsLeft == r.ballsLeft - 1
              && o.robot.shootingInProgress && o.robot.angleTurnInProgress
              && !o.robot.robotControlEnabled
              && o.effects == [Send(PcWriter.ShootHigh), ShowBallsLeft(r.ballsLeft - 1), Send(PcWriter.TurnToAngle(rand))]
    ensures !(IsReady(r) && r.ballsLeft > 0) ==> o == Outcome(r, [])
  {
    Shoot(r, PcWriter.ShootHigh, rand)
  }

  function ShootCannonLow(r: Robot, rand: RandomAngle): (o: Outcome)
    ensures IsReady(r) && r.ballsLeft > 0 ==>
              && o.robot.ballsLeft == r.ballsLeft - 1
              && o.robot.shootingInProgress && o.robot.angleTurnInProgress
              && !o.robot.robotControlEnabled
              && o.effects == [Send(PcWriter.ShootLow), ShowBallsLeft(r.ballsLeft - 1), Send(PcWriter.TurnToAngle(rand))]
    ensures !(IsReady(r) && r.ballsLeft > 0) ==> o == Outcome(r, [])
  {
    Shoot(r, PcWriter.ShootLow, rand)
  }

  /** `sendMaxIRDistance`, `sendMinRedValue` and `clearWriteBuffer`: plain
      commands for the writer. */
  function SendMaxIRDistance(): (e: seq<Effect>)
    ensures |e| == 1 && e[0].Send? && PcWriter.Encode(e[0].command) == "i15"
  {
    [Send(PcWriter.MaxIRDistance(MAX_BALL_IR_DISTANCE))]
  }

  function SendMinRedValue(): (e: seq<Effect>)
    ensures |e| == 1 && e[0].Send? && PcWriter.Encode(e[0].command) == "c0.0095"
  {
    [Send(PcWriter.MinRedValue(MINIMUM_RED_VALUE_TEXT))]
  }

  function ClearWriteBuffer(): (e: seq<Effect>)
    ensures |e| == 1 && e[0].Send? && PcWriter.Encode(e[0].command) == "z"
  {
    [Send(PcWriter.ClearBufferCommand)]
  }

  /** Every public state-changing operation of the robot model. */
  datatype Op =
    | ResetRound
    | SetControl(enabled: bool)
    | AngleReport(angle: int)
    | Left | ForceLeft | Right | ForceRight | Stop
    | FireHigh(rand: RandomAngle) | FireLow(rand: RandomAngle)
    | TurnTo(target: int) | ForceTurnTo(target: int) | TurnToRandom(rand: RandomAngle)
    | ShootingFlag(value: bool, rand: RandomAngle)
    | AngleTurnFlag(value: bool)

  function Apply(r: Robot, op: Op): Outcome {
    match op
    case ResetRound => Outcome(Reset(r), [])
    case SetControl(v) => Outcome(SetRobotControlEnabled(r, v), [])
    case AngleReport(n) => SetCurrentAngle(r, n)
    case Left => Outcome(r, TurnLeft(r).effects)
    case ForceLeft => Outcome(r, ForceTurnLeft(r).effects)
    case Right => Outcome(r, TurnRight(r).effects)
    case ForceRight => Outcome(r, ForceTurnRight(r).effects)
    case Stop => Outcome(r, StopTurning())
    case FireHigh(rand) => ShootCannonHigh(r, rand)
    case FireLow(rand) => ShootCannonLow(r, rand)
    case TurnTo(n) => TurnToAngle(r, n)
    case ForceTurnTo(n) => ForceTurnToAngle(r, n)
    case TurnToRandom(rand) => TurnToRandomAngle(r, rand)
    case ShootingFlag(v, rand) => if v then ShotStarted(r, rand) else ShotFinished(r)
    case AngleTurnFlag(v) => SetAngleTurnInProgress(r, v)
  }

  /** Control is only ever on while nothing is in progress, and the ball
      count stays between 0 and the full load. */
  ghost predicate Inv(r: Robot) {
    && (r.robotControlEnabled ==> !r.shootingInProgress && !r.angleTurnInProgress)
    && 0 <= r.ballsLeft <= MAX_BALLS
  }

  /** The two limit guards decide whether a forced turn starts, at least one
      of them always holds, and a reset cannon may turn either way. */
  lemma LimitGuards(r: Robot)
    ensures IsNotAtMaxAngle(r) <==> ForceTurnLeft(r).turning
    ensures IsNotAtMinAngle(r) <==> ForceTurnRight(r).turning
    ensures IsNotAtMaxAngle(r) || IsNotAtMinAngle(r)
    ensures IsNotAtMaxAngle(Reset(r)) && IsNotAtMinAngle(Reset(r))
  {
  }

  /** Under the invariant, ready is the same as control enabled. */
  lemma ReadyIsControl(r: Robot)
    requires Inv(r)
    ensures IsReady(r) <==> r.robotControlEnabled
  {
  }

  /** Every operation keeps the invariant, except enabling control directly
      while the robot is busy (the controller does so only right after a
      reset). */
  lemma InvPreserved(r: Robot, op: Op)
    requires Inv(r)
    requires op.SetControl? && op.enabled ==> !r.shootingInProgress && !r.angleTurnInProgress
    ensures Inv(Apply(r, op).robot)
  {
  }

  /** Apart from the direct setter, control is switched on only by a busy
      flag being cleared, and then both flags are clear. */
  lemma ControlRaisedOnlyByAcks(r: Robot, op: Op)
    requires !r.robotControlEnabled && Apply(r, op).robot.robotControlEnabled
    ensures op.SetControl? ||
            ((op.ShootingFlag? || op.AngleTurnFlag?) && !op.value &&
             !Apply(r, op).robot.shootingInProgress && !Apply(r, op).robot.angleTurnInProgress)
  {
  }

  /** The round-over notification comes only from clearing a busy flag, and
      exactly when both flags end up clear and no ball is left. */
  lemma EndGameOnlyFromCheck(r: Robot, op: Op)
    ensures EndGame in Apply(r, op).effects <==>
              && (op.ShootingFlag? || op.AngleTurnFlag?) && !op.value
              && !Apply(r, op).robot.shootingInProgress
              && !Apply(r, op).robot.angleTurnInProgress
              && Apply(r, op).robot.ballsLeft < 1
  {
  }

  /** A refused shot can never take the ball count below zero. */
  lemma BallsNeverNegative(r: Robot, op: Op)
    requires r.ballsLeft >= 0
    ensures Apply(r, op).robot.ballsLeft >= 0
  {
  }

  /** One shot and its two acknowledgements, the turn acknowledgement first
      or second. */
  function Round(r: Robot, high: bool, rand: RandomAngle, turnAckFirst: bool): Outcome {
    var shot := if high then ShootCannonHigh(r, rand) else ShootCannonLow(r, rand);
    var a := if turnAckFirst then SetAngleTurnInProgress(shot.robot, false) else ShotFinished(shot.robot);
    var b := if turnAckFirst then ShotFinished(a.robot) else SetAngleTurnInProgress(a.robot, false);
    Outcome(b.robot, shot.effects + a.effects + b.effects)
  }

  function EndGames(effects: seq<Effect>): nat {
    if effects == [] then 0 else (if effects[0] == EndGame then 1 else 0) + EndGames(effects[1..])
  }

  lemma {:induction false} EndGamesAppend(a: seq<Effect>, b: seq<Effect>)
    ensures EndGames(a + b) == EndGames(a) + EndGames(b)
    decreases |a|
  {
    if a == [] {
      assert a + b == b;
    } else {
      assert (a + b)[1..] == a[1..] + b;
      EndGamesAppend(a[1..], b);
    }
  }

  lemma {:induction false} NoEndGames(effects: seq<Effect>)
    requires EndGame !in effects
    ensures EndGames(effects) == 0
    decreases |effects|
  {
    if effects != [] {
      NoEndGames(effects[1..]);
    }
  }

  /** A complete round from a ready robot costs one ball, leaves the robot
      ready again, and signals round-over exactly when it was the last
      ball, whichever acknowledgement arrives first. */
  lemma RoundOutcome(r: Robot, high: bool, rand: RandomAngle, turnAckFirst: bool)
    requires IsReady(r) && r.ballsLeft > 0
    ensures IsReady(Round(r, high, rand, turnAckFirst).robot)
    ensures Round(r, high, rand, turnAckFirst).robot.ballsLeft == r.ballsLeft - 1
    ensures Round(r, high, rand, turnAckFirst).robot.currentAngle == r.currentAngle
    ensures EndGames(Round(r, high, rand, turnAckFirst).effects) == if r.ballsLeft == 1 then 1 else 0
  {
    var shot := if high then ShootCannonHigh(r, rand) else ShootCannonLow(r, rand);
    var a := if turnAckFirst then SetAngleTurnInProgress(shot.robot, false) else ShotFinished(shot.robot);
    var b := if turnAckFirst then ShotFinished(a.robot) else SetAngleTurnInProgress(a.robot, false);
    assert a.effects == [];
    EndGamesAppend(shot.effects, a.effects);
    EndGamesAppend(shot.effects + a.effects, b.effects);
    NoEndGames(shot.effects);
  }

  /** Rounds played one after another, each shot chosen by the player. */
  function Play(r: Robot, shots: seq<(bool, RandomAngle, bool)>): Outcome
    decreases |shots|
  {
    if shots == [] then Outcome(r, [])
    else
      var first := Round(r, shots[0].0, shots[0].1, shots[0].2);
      var rest := Play(first.robot, shots[1..]);
      Outcome(rest.robot, first.effects + rest.effects)
  }

  /** Playing out every ball of a ready robot empties it and signals
      round-over exactly once. */
  lemma {:induction false} PlayOutAllBalls(r: Robot, shots: seq<(bool, RandomAngle, bool)>)
    requires IsReady(r) && r.ballsLeft == |shots| > 0
    ensures Play(r, shots).robot.ballsLeft == 0
    ensures EndGames(Play(r, shots).effects) == 1
    decreases |shots|
  {
    var first := Round(r, shots[0].0, shots[0].1, shots[0].2);
    RoundOutcome(r, shots[0].0, shots[0].1, shots[0].2);
    EndGamesAppend(first.effects, Play(first.robot, shots[1..]).effects);
    if |shots| > 1 {
      PlayOutAllBalls(first.robot, shots[1..]);
    }
  }

  /** A game as the controller starts it: reset, then control enabled; six
      rounds then end it exactly once. */
  lemma SixShotGame(r: Robot, shots: seq<(bool, RandomAngle, bool)>)
    requires |shots| == MAX_BALLS
    ensures Play(SetRobotControlEnabled(Reset(r), true), shots).robot.ballsLeft == 0
    ensures EndGames(Play(SetRobotControlEnabled(Reset(r), true), shots).effects) == 1
  {
    PlayOutAllBalls(SetRobotControlEnabled(Reset(r), true), shots);
  }

  /** A report that jumps past the upper limit from just inside it is stored
      as reported and queues no stop; the next left turn is then refused
      with a stop, and the next report further out queues one. */
  lemma OvershootPastLimit(r: Robot)
    requires IsReady(r) && r.currentAngle == 84
    ensures SetCurrentAngle(r, 86).robot.currentAngle == 86
    ensures Send(PcWriter.StopTurning) !in SetCurrentAngle(r, 86).effects
    ensures TurnLeft(SetCurrentAngle(r, 86).robot) == Turn(false, [Send(PcWriter.StopTurning)])
    ensures Send(PcWriter.StopTurning) in SetCurrentAngle(SetCurrentAngle(r, 86).robot, 87).effects
  {
  }
}

=== FILE: highscores.dfy ===
/** The high-score table (`game.model.HighscoreList`): at most twenty
    name/score entries kept in descending order of score. A score joins a
    table that is not yet full; on a full table it must reach the lowest
    score, and then the entry that was last is dropped. The table is sorted
    with a stable sort after every accepted score. */
module Highscores {
  /** `Highscore`: the player's name and score. */
  datatype Highscore = Highscore(name: string, score: real)

  const HIGHSCORE_LIST_MAX_SIZE: nat := 20

  /** The outcome of `addScore`: the table after it and the boolean result. */
  datatype Added = Added(list: seq<Highscore>, added: bool)

  /** No entry scores more than the one before it. */
  predicate Descending(l: seq<Highscore>)
    decreases |l|
  {
    |l| <= 1 || (l[0].score >= l[1].score && Descending(l[1..]))
  }

  /** The entries with score `v`, in table order. */
  function WithScore(l: seq<Highscore>, v: real): seq<Highscore>
    decreases |l|
  {
    if l == [] then [] else (if l[0].score == v then [l[0]] else []) + WithScore(l[1..], v)
  }

  /** The number of entries scoring more than `v`. */
  function CountAbove(l: seq<Highscore>, v: real): (c: nat)
    ensures c <= |l|
    decreases |l|
  {
    if l == [] then 0 else (if l[0].score > v then 1 else 0) + CountAbove(l[1..], v)
  }

  /** In a descending table every entry scores at least as much as every
      later one. */
  lemma {:induction false} DescendingPairs(l: seq<Highscore>)
    requires Descending(l)
    ensures forall i, j :: 0 <= i < j < |l| ==> l[i].score >= l[j].score
    decreases |l|
  {
    if |l| > 1 {
      DescendingPairs(l[1..]);
      assert forall j :: 1 <= j < |l| ==> l[j] == l[1..][j - 1];
    }
  }

  /** A prefix of a descending table is descending. */
  lemma {:induction false} DescendingPrefix(l: seq<Highscore>, n: nat)
    requires Descending(l) && n <= |l|
    ensures Descending(l[..n])
    decreases n
  {
    if n > 1 {
      DescendingPrefix(l[1..], n - 1);
      assert l[..n][1..] == l[1..][..n - 1];
    }
  }

  /** `firstScoreIndex`: a linear scan of every entry but the last. It stops
      with the index of the first entry equal to `score`, and gives up with
      -1 at the first entry below it or at the end of the scan. */
  function FirstScoreIndex(l: seq<Highscore>, score: real): (i: int)
    ensures i == -1 || 0 <= i < |l| - 1
    ensures i >= 0 ==> l[i].score == score && forall j :: 0 <= j < i ==> l[j].score > score
    ensures i == -1 ==>
              forall k :: 0 <= k < |l| - 1 && l[k].score == score ==>
                exists j :: 0 <= j < k && l[j].score < score
  {
    ScanFrom(l, score, 0)
  }

  function ScanFrom(l: seq<Highscore>, score: real, from: nat): (i: int)
    ensures i == -1 || from <= i < |l| - 1
    ensures i >= 0 ==> l[i].score == score && forall j :: from <= j < i ==> l[j].score > score
    ensures i == -1 ==>
              forall k :: from <= k < |l| - 1 && l[k].score == score ==>
                exists j :: from <= j < k && l[j].score < score
    decreases |l| - from
  {
    if from >= |l| - 1 then -1
    else if l[from].score == score then from
    else if l[from].score < score then
      assert forall k :: from <= k < |l| - 1 && l[k].score == score ==> from < k && l[from].score < score;
      -1
    else ScanFrom(l, score, from + 1)
  }

  /** On a descending table the scan finds `score` exactly when some entry
      other than the last has it, and then it finds the first one. */
  lemma FirstScoreIndexSorted(l: seq<Highscore>, score: real)
    requires Descending(l)
    ensures FirstScoreIndex(l, score) >= 0 <==> exists k :: 0 <= k < |l| - 1 && l[k].score == score
    ensures FirstScoreIndex(l, score) >= 0 ==> FirstScoreIndex(l, score) == CountAbove(l, score)
  {
    DescendingPairs(l);
    CountAboveSplits(l, score);
  }

  /** On a sorted table the last score is a lower bound of all scores. */
  lemma LowestBound(l: seq<Highscore>)
    requires |l| > 0
    ensures Descending(l) ==> forall i :: 0 <= i < |l| ==> l[i].score >= l[|l| - 1].score
  {
    if Descending(l) {
      DescendingPairs(l);
    }
  }

  /** `getLowestScore`: the score of the last entry, which on a sorted table
      is the lowest score. */
  function GetLowestScore(l: seq<Highscore>): (r: real)
    requires |l| > 0
    ensures r == l[|l| - 1].score
    ensures Descending(l) ==> forall i :: 0 <= i < |l| ==> l[i].score >= r
  {
    LowestBound(l);
    l[|l| - 1].score
  }

  /** In a sorted table the last score is at most every score, so the score
      that `addScore` compares against is the table's minimum. */
  lemma LowestScoreIsMinimum(l: seq<Highscore>)
    requires Descending(l) && |l| > 0
    ensures forall i :: 0 <= i < |l| ==> l[i].score >= GetLowestScore(l)
    ensures exists i :: 0 <= i < |l| && l[i].score == GetLowestScore(l)
  {
    DescendingPairs(l);
    assert l[|l| - 1].score == GetLowestScore(l);
  }

  /** One step of the sort: `x` goes in front of the first entry that does
      not score more than it, so it precedes the entries it ties with. */
  function Insert(x: Highscore, s: seq<Highscore>): (r: seq<Highscore>)
    ensures |r| == |s| + 1
    ensures r[0] == x || (s != [] && r[0] == s[0])
    decreases |s|
  {
    if s == [] || x.score >= s[0].score then [x] + s
    else [s[0]] + Insert(x, s[1..])
  }

  lemma {:induction false} InsertIsPermutation(x: Highscore, s: seq<Highscore>)
    ensures multiset(Insert(x, s)) == multiset(s) + multiset{x}
    decreases |s|
  {
    if s != [] && x.score < s[0].score {
      InsertIsPermutation(x, s[1..]);
      assert s == [s[0]] + s[1..];
    }
  }

  lemma {:induction false} InsertSorted(x: Highscore, s: seq<Highscore>)
    requires Descending(s)
    ensures Descending(Insert(x, s))
    decreases |s|
  {
    if s != [] && x.score < s[0].score {
      InsertSorted(x, s[1..]);
      assert Insert(x, s)[1..] == Insert(x, s[1..]);
    }
  }

  /** The comparator sort by insertion. That it is the stable descending
      sort is `SortIsSorted` and `SortIsStable`. */
  function SortDescending(l: seq<Highscore>): (r: seq<Highscore>)
    ensures |r| == |l|
    decreases |l|
  {
    if l == [] then [] else Insert(l[0], SortDescending(l[1..]))
  }

  /** The sort only reorders. */
  lemma {:induction false} SortIsPermutation(l: seq<Highscore>)
    ensures multiset(SortDescending(l)) == multiset(l)
    decreases |l|
  {
    if l != [] {
      SortIsPermutation(l[1..]);
      InsertIsPermutation(l[0], SortDescending(l[1..]));
      assert l == [l[0]] + l[1..];
    }
  }

  /** The sort's result is in descending order of score. */
  lemma {:induction false} SortIsSorted(l: seq<Highscore>)
    ensures Descending(SortDescending(l))
    decreases |l|
  {
    if l != [] {
      SortIsSorted(l[1..]);
      InsertSorted(l[0], SortDescending(l[1..]));
    }
  }

  /** Inserting keeps the order among equal scores, `x` first. */
  lemma {:induction false} InsertKeepsTies(x: Highscore, s: seq<Highscore>, v: real)
    ensures WithScore(Insert(x, s), v) == (if x.score == v then [x] else []) + WithScore(s, v)
    decreases |s|
  {
    if s == [] || x.score >= s[0].score {
      assert ([x] + s)[1..] == s;
    } else {
      InsertKeepsTies(x, s[1..], v);
      var t := Insert(x, s[1..]);
      assert ([s[0]] + t)[1..] == t;
      assert WithScore([s[0]] + t, v) == (if s[0].score == v then [s[0]] else []) + WithScore(t, v);
    }
  }

  /** Stability: the entries of any one score stay in their original order. */
  lemma {:induction false} SortIsStable(l: seq<Highscore>, v: real)
    ensures WithScore(SortDescending(l), v) == WithScore(l, v)
    decreases |l|
  {
    if l != [] {
      SortIsStable(l[1..], v);
      InsertKeepsTies(l[0], SortDescending(l[1..]), v);
    }
  }

  /** A sorted table is left as it is. */
  lemma {:induction false} SortedUnchanged(l: seq<Highscore>)
    requires Descending(l)
    ensures SortDescending(l) == l
    decreases |l|
  {
    if l != [] {
      SortedUnchanged(l[1..]);
      assert l == [l[0]] + l[1..];
    }
  }

  lemma SortCons(a: Highscore, t: seq<Highscore>)
    ensures SortDescending([a] + t) == Insert(a, SortDescending(t))
  {
  }

  /** In a sorted table the entries above `v` form a prefix. */
  lemma {:induction false} CountAboveSplits(l: seq<Highscore>, v: real)
    requires Descending(l)
    ensures forall i :: 0 <= i < CountAbove(l, v) ==> l[i].score > v
    ensures forall i :: CountAbove(l, v) <= i < |l| ==> l[i].score <= v
    decreases |l|
  {
    if l != [] {
      CountAboveSplits(l[1..], v);
      if l[0].score <= v {
        DescendingPairs(l);
        NoneAbove(l, v);
      }
    }
  }

  lemma {:induction false} NoneAbove(l: seq<Highscore>, v: real)
    requires forall i :: 0 <= i < |l| ==> l[i].score <= v
    ensures CountAbove(l, v) == 0
    decreases |l|
  {
    if l != [] {
      NoneAbove(l[1..], v);
    }
  }

  /** In a sorted table, the first entry not above `v` sits at index
      `CountAbove`. */
  lemma {:induction false} CountAboveIs(s: seq<Highscore>, v: real, k: nat)
    requires Descending(s) && k < |s|
    requires forall j :: 0 <= j < k ==> s[j].score > v
    requires s[k].score <= v
    ensures CountAbove(s, v) == k
    decreases k
  {
    if k == 0 {
      DescendingPairs(s);
      NoneAbove(s, v);
    } else {
      CountAboveIs(s[1..], v, k - 1);
    }
  }

  /** Where one insertion step puts `x` in a sorted table: after exactly the
      entries that score more. */
  lemma {:induction false} InsertPosition(x: Highscore, s: seq<Highscore>)
    requires Descending(s)
    ensures Insert(x, s) == s[..CountAbove(s, x.score)] + [x] + s[CountAbove(s, x.score)..]
    decreases |s|
  {
    if s == [] {
    } else if x.score >= s[0].score {
      DescendingPairs(s);
      NoneAbove(s, x.score);
    } else {
      InsertPosition(x, s[1..]);
      var k := CountAbove(s[1..], x.score);
      var t := s[1..];
      assert Insert(x, s) == [s[0]] + (t[..k] + [x] + t[k..]);
      assert CountAbove(s, x.score) == k + 1;
      assert s[..k + 1] == [s[0]] + t[..k];
      assert s[k + 1..] == t[k..];
    }
  }

  /** `e` placed after the leading entries that score at least as much: in
      a sorted table, after every entry it ties with. */
  function PlaceAfter(l: seq<Highscore>, e: Highscore): (r: seq<Highscore>)
    ensures |r| == |l| + 1
    decreases |l|
  {
    if l == [] || l[0].score < e.score then [e] + l
    else [l[0]] + PlaceAfter(l[1..], e)
  }

  /** Sorting a sorted table with one entry appended puts the entry after
      the entries it ties with. */
  lemma {:induction false} SortAppended(l: seq<Highscore>, e: Highscore)
    requires Descending(l)
    ensures SortDescending(l + [e]) == PlaceAfter(l, e)
    decreases |l|
  {
    if l == [] {
      assert l + [e] == [e];
      SortCons(e, []);
    } else {
      var a, t := l[0], l[1..];
      assert l + [e] == [a] + (t + [e]);
      SortAppended(t, e);
      SortCons(a, t + [e]);
      if a.score < e.score {
        assert ([e] + t)[1..] == t;
        assert l == [a] + t;
      }
    }
  }

  /** `list.add(id, entry)` when the scan found the score, else
      `list.add(0, entry)`, then the trim to twenty. */
  function InsertAndTrim(l: seq<Highscore>, e: Highscore, id: int): (r: seq<Highscore>)
    requires id == -1 || 0 <= id < |l|
    ensures |r| == if |l| + 1 > HIGHSCORE_LIST_MAX_SIZE then HIGHSCORE_LIST_MAX_SIZE else |l| + 1
  {
    var inserted := if id >= 0 then l[..id] + [e] + l[id..] else [e] + l;
    if |inserted| > HIGHSCORE_LIST_MAX_SIZE then inserted[..HIGHSCORE_LIST_MAX_SIZE] else inserted
  }

  /** `addScore`, for a player with this name and score. */
  function AddScore(l: seq<Highscore>, name: string, score: real): (r: Added)
    ensures r.added <==> |l| < HIGHSCORE_LIST_MAX_SIZE || score >= l[|l| - 1].score
    ensures !r.added ==> r.list == l
    ensures r.added ==> Descending(r.list)
    ensures r.added ==> |r.list| == if |l| < HIGHSCORE_LIST_MAX_SIZE then |l| + 1 else HIGHSCORE_LIST_MAX_SIZE
  {
    var e := Highscore(name, score);
    if |l| >= HIGHSCORE_LIST_MAX_SIZE then
      if score >= GetLowestScore(l) then
        var trimmed := InsertAndTrim(l, e, FirstScoreIndex(l, score));
        SortIsSorted(trimmed);
        Added(SortDescending(trimmed), true)
      else
        Added(l, false)
    else
      SortIsSorted(l + [e]);
      Added(SortDescending(l + [e]), true)
  }

  /** What an accepted score leaves in the table: on a table that was not
      full, every old entry and the new one; on a table of exactly twenty,
      every old entry but the last, and the new one. */
  lemma AddScoreContents(l: seq<Highscore>, name: string, score: real)
    ensures |l| < HIGHSCORE_LIST_MAX_SIZE ==>
              multiset(AddScore(l, name, score).list) == multiset(l) + multiset{Highscore(name, score)}
    ensures |l| == HIGHSCORE_LIST_MAX_SIZE && AddScore(l, name, score).added ==>
              multiset(AddScore(l, name, score).list) ==
                multiset(l[..HIGHSCORE_LIST_MAX_SIZE - 1]) + multiset{Highscore(name, score)}
  {
    var e := Highscore(name, score);
    var m := HIGHSCORE_LIST_MAX_SIZE;
    if |l| < m {
      SortIsPermutation(l + [e]);
    } else if |l| == m && score >= l[m - 1].score {
      var id := FirstScoreIndex(l, score);
      SortIsPermutation(InsertAndTrim(l, e, id));
      TrimDropsLast(l, e, id);
    }
  }

  /** On a table of exactly twenty, the entry the trim drops is the one that
      was last, wherever the new entry went in. */
  lemma TrimDropsLast(l: seq<Highscore>, e: Highscore, id: int)
    requires |l| == HIGHSCORE_LIST_MAX_SIZE
    requires id == -1 || 0 <= id < |l| - 1
    ensures multiset(InsertAndTrim(l, e, id)) == multiset(l[..HIGHSCORE_LIST_MAX_SIZE - 1]) + multiset{e}
  {
    var m := HIGHSCORE_LIST_MAX_SIZE;
    if id >= 0 {
      var inserted := l[..id] + [e] + l[id..];
      assert inserted[..m] == l[..id] + [e] + l[id..m - 1];
      assert l[..m - 1] == l[..id] + l[id..m - 1];
    } else {
      assert ([e] + l)[..m] == [e] + l[..m - 1];
    }
  }

  /** A score joining a sorted table that is not full goes after every
      entry it ties with. */
  lemma AddScoreNotFull(l: seq<Highscore>, name: string, score: real)
    requires Descending(l) && |l| < HIGHSCORE_LIST_MAX_SIZE
    ensures AddScore(l, name, score) == Added(PlaceAfter(l, Highscore(name, score)), true)
  {
    SortAppended(l, Highscore(name, score));
  }

  /** A score joining a full sorted table: the last entry goes, and the new
      one is inserted ahead of every entry it ties with. */
  lemma AddScoreFull(l: seq<Highscore>, name: string, score: real)
    requires Descending(l) && |l| == HIGHSCORE_LIST_MAX_SIZE
    requires score >= l[|l| - 1].score
    ensures AddScore(l, name, score) ==
              Added(Insert(Highscore(name, score), l[..HIGHSCORE_LIST_MAX_SIZE - 1]), true)
  {
    var e := Highscore(name, score);
    var m := HIGHSCORE_LIST_MAX_SIZE;
    var s := l[..m - 1];
    var id := FirstScoreIndex(l, score);
    DescendingPrefix(l, m - 1);
    if id >= 0 {
      FirstScoreIndexSorted(l, score);
      InsertPosition(e, s);
      assert forall j :: 0 <= j < |s| ==> s[j] == l[j];
      CountAboveIs(s, score, id);
      assert InsertAndTrim(l, e, id) == s[..id] + [e] + s[id..] by {
        assert (l[..id] + [e] + l[id..])[..m] == l[..id] + [e] + l[id..m - 1];
        assert s[..id] == l[..id] && s[id..] == l[id..m - 1];
      }
      InsertSorted(e, s);
      SortedUnchanged(Insert(e, s));
    } else {
      assert InsertAndTrim(l, e, id) == [e] + s by {
        assert ([e] + l)[..m] == [e] + s;
      }
      SortCons(e, s);
      SortedUnchanged(s);
    }
  }

  /** Where a tie lands depends on whether the table was full: one entry of
      5 and a new 5 gives the new entry second place, but on a full table of
      fives the new entry comes first. */
  lemma TiesRankedByFullness()
    ensures AddScore([Highscore("old", 5.0)], "new", 5.0).list ==
              [Highscore("old", 5.0), Highscore("new", 5.0)]
    ensures AddScore(seq(HIGHSCORE_LIST_MAX_SIZE, _ => Highscore("old", 5.0)), "new", 5.0).list[0] ==
              Highscore("new", 5.0)
  {
    var one := [Highscore("old", 5.0)];
    AddScoreNotFull(one, "new", 5.0);
    var full := seq(HIGHSCORE_LIST_MAX_SIZE, _ => Highscore("old", 5.0));
    AllEqualDescending(full);
    AddScoreFull(full, "new", 5.0);
  }

  /** A table whose entries all score the same is sorted. */
  lemma {:induction false} AllEqualDescending(l: seq<Highscore>)
    requires forall i :: 0 <= i < |l| ==> l[i].score == l[0].score
    ensures Descending(l)
    decreases |l|
  {
    if |l| > 1 {
      AllEqualDescending(l[1..]);
    }
  }

  /** On a full sorted table the entry that drops out scored no more than
      any entry that stays. */
  lemma FullKeepsBest(l: seq<Highscore>, name: string, score: real)
    requires Descending(l) && |l| == HIGHSCORE_LIST_MAX_SIZE
    ensures AddScore(l, name, score).added ==>
              forall h :: h in AddScore(l, name, score).list ==> h.score >= l[|l| - 1].score
  {
    var r := AddScore(l, name, score);
    if r.added {
      AddScoreContents(l, name, score);
      DescendingPairs(l);
      forall h | h in r.list
        ensures h.score >= l[|l| - 1].score
      {
        assert h in multiset(r.list);
        if h != Highscore(name, score) {
          assert h in multiset(l[..|l| - 1]);
          var k :| 0 <= k < |l| - 1 && l[..|l| - 1][k] == h;
          assert l[k] == h;
        }
      }
    }
  }
}

=== FILE: outbox.dfy ===
/** The outbound message queue shared by the PC writer thread and the robot
    writer thread. Both keep a FIFO list of strings and the last string
    actually written to the socket; one iteration of their loop writes the
    head of the queue, or silently drops it when it equals the last string
    written. */
module Outbox {
  import opened Wire

  /** A string neither end ever sends: the "nothing written yet" marker. */
  const SENTINEL: string := "!"

  datatype Outbox = Outbox(queue: seq<string>, last: string)

  /** A freshly constructed or cleared writer: nothing queued, nothing sent. */
  function Empty(): (o: Outbox)
    ensures o.queue == [] && o.last == SENTINEL
  {
    Outbox([], SENTINEL)
  }

  /** `List.add`: one message at the tail, the marker untouched. */
  function Push(o: Outbox, msg: string): (r: Outbox)
    ensures r.queue == o.queue + [msg] && |r.queue| == |o.queue| + 1
    ensures r.last == o.last
  {
    o.(queue := o.queue + [msg])
  }

  /** The effect of one send step: the queue left behind and what, if
      anything, was written to the socket. */
  datatype Sent = Sent(rest: Outbox, wrote: Option<string>)

  /** One iteration of a writer loop. */
  function Step(o: Outbox): (r: Sent)
    ensures o.queue == [] ==> r.rest == o && r.wrote == None
    ensures o.queue != [] ==> r.rest.queue == o.queue[1..]
    ensures o.queue != [] && o.queue[0] != o.last ==>
              r.wrote == Some(o.queue[0]) && r.rest.last == o.queue[0]
    ensures o.queue != [] && o.queue[0] == o.last ==>
              r.wrote == None && r.rest.last == o.last
  {
    if o.queue == [] then Sent(o, None)
    else if o.queue[0] != o.last then Sent(Outbox(o.queue[1..], o.queue[0]), Some(o.queue[0]))
    else Sent(Outbox(o.queue[1..], o.last), None)
  }

  /** No message equals the one written right before it, and the first
      differs from the marker `last`. */
  ghost predicate NoRepeats(last: string, out: seq<string>) {
    && (|out| > 0 ==> out[0] != last)
    && forall i :: 0 <= i < |out| - 1 ==> out[i] != out[i + 1]
  }

  ghost predicate IsSubsequence(xs: seq<string>, ys: seq<string>)
    decreases |ys|
  {
    if xs == [] then true
    else if ys == [] then false
    else if xs[0] == ys[0] then IsSubsequence(xs[1..], ys[1..])
    else IsSubsequence(xs, ys[1..])
  }

  /** Everything the writer transmits when it is left to empty its queue. */
  function Drain(o: Outbox): (out: seq<string>)
    ensures |out| <= |o.queue|
    ensures NoRepeats(o.last, out)
    ensures IsSubsequence(out, o.queue)
    decreases |o.queue|
  {
    if o.queue == [] then []
    else
      var s := Step(o);
      if s.wrote.Some? then [s.wrote.value] + Drain(s.rest) else Drain(s.rest)
  }

  /** Reference definition: a sequence with every run of equal adjacent
      elements collapsed to one element (the Unix `uniq`). */
  function Uniq(s: seq<string>): (r: seq<string>)
    ensures |r| <= |s|
    ensures |s| > 0 ==> |r| > 0 && r[0] == s[0]
    decreases |s|
  {
    if |s| <= 1 then s
    else if s[0] == s[1] then Uniq(s[1..])
    else [s[0]] + Uniq(s[1..])
  }

  lemma UniqCons(x: string, s: seq<string>)
    requires |s| > 0
    ensures x == s[0] ==> Uniq([x] + s) == Uniq(s)
    ensures x != s[0] ==> Uniq([x] + s) == [x] + Uniq(s)
  {
  }

  /** What the writer transmits is exactly the collapsed runs of the marker
      followed by the queue, without the marker. */
  lemma {:induction false} DrainIsUniq(o: Outbox)
    ensures Drain(o) == Uniq([o.last] + o.queue)[1..]
    decreases |o.queue|
  {
    var q := o.queue;
    if q == [] {
      assert [o.last] + q == [o.last];
    } else {
      var s := Step(o);
      DrainIsUniq(s.rest);
      assert ([o.last] + q)[1..] == q;
      if q[0] == o.last {
        assert [o.last] + q[1..] == q;
      } else {
        assert [q[0]] + q[1..] == q;
        assert Uniq(q) == [q[0]] + Uniq(q)[1..];
      }
    }
  }

  /** The writer loop, run until the queue is empty. */
  method Flush(o: Outbox) returns (out: seq<string>, rest: Outbox)
    ensures rest.queue == []
    ensures out == Drain(o)
    ensures out == Uniq([o.last] + o.queue)[1..]
  {
    out := [];
    rest := o;
    while rest.queue != []
      invariant out + Drain(rest) == Drain(o)
      decreases |rest.queue|
    {
      var s := Step(rest);
      if s.wrote.Some? {
        out := out + [s.wrote.value];
      }
      rest := s.rest;
    }
    DrainIsUniq(o);
  }

  /** A message equal to the last one written is dropped however long after
      it is queued: de-duplication is against the last message written, not
      the last one queued. */
  lemma RepeatOfLastSentDropped(o: Outbox, msg: string)
    requires o.queue == [] && o.last == msg
    ensures Drain(Push(o, msg)) == []
  {
  }

  /** Repeats that are not adjacent are all written. */
  lemma {:induction false} NonAdjacentRepeatsSent(x: string, y: string, last: string)
    requires x != y && x != last
    ensures Drain(Outbox([x, y, x], last)) == [x, y, x]
  {
    var o := Outbox([x, y, x], last);
    assert Step(o) == Sent(Outbox([y, x], x), Some(x));
    assert Step(Outbox([y, x], x)) == Sent(Outbox([x], y), Some(y));
    assert Step(Outbox([x], y)) == Sent(Outbox([], x), Some(x));
    assert Drain(Outbox([x], y)) == [x];
    assert Drain(Outbox([y, x], x)) == [y, x];
  }

  /** After a clear, the first message queued that is not the marker is
      written by the next step. */
  lemma ClearedSendsNext(msg: string)
    requires msg != SENTINEL
    ensures Step(Push(Empty(), msg)).wrote == Some(msg)
  {
  }
}

=== FILE: pc_reader.dfy ===
/** The PC's data reader (`game.model.DataReaderThread`): one iteration of its
    loop takes the string just read from the robot, skips it when it repeats
    the previous one, and otherwise dispatches on its first character into
    the cannon model. Exceptions the loop does not catch (`charAt(0)` on an
    empty string, `Integer.parseInt` on a malformed angle) end the thread:
    the `Crashed` step. */
module PcReader {
  import opened Wire
  import Cannon
  import PcWriter

  /** The identifiers the reader knows; `z`, space and `-` are known but
      dispatch nothing. */
  const DATA_TYPES: seq<char> := ['a', 'i', 'c', 'f', 't', 'z', ' ', '-']

  datatype Reader = Reader(input: string, previousInput: string, dataReceived: bool)

  /** What one iteration hands on: effects of the cannon model, readings for
      the player's score, and the one-time "data streams work" signal. */
  datatype Signal =
    | Robot(effect: Cannon.Effect)
    | ScoreIR(payload: string)      // player.scoreIR, payload unparsed
    | ScoreColor(payload: string)   // player.scoreColor
    | DataReceived                  // controller.dataReceived

  datatype Iteration =
    | Crashed
    | Stepped(reader: Reader, robot: Cannon.Robot, signals: seq<Signal>)

  /** The constructor: no data yet, and the two "no data" markers differ. */
  function New(): (r: Reader)
    ensures r.input == " " && r.previousInput == "-" && !r.dataReceived
  {
    Reader(" ", "-", false)
  }

  /** `clearBufferData`: back to the initial markers. */
  function ClearBufferData(r: Reader): (r': Reader)
    ensures r'.input == New().input && r'.previousInput == New().previousInput
    ensures r'.dataReceived == r.dataReceived
  {
    r.(input := " ", previousInput := "-")
  }

  function Lift(effects: seq<Cannon.Effect>): (s: seq<Signal>)
    ensures |s| == |effects|
    ensures forall i :: 0 <= i < |s| ==> s[i] == Robot(effects[i])
  {
    seq(|effects|, i requires 0 <= i < |effects| => Robot(effects[i]))
  }

  /** The one-time "data streams work" signal an iteration adds while it has
      not been given yet. */
  function FirstSignal(reader: Reader): (s: seq<Signal>)
    ensures DataReceived in s <==> !reader.dataReceived
    ensures |s| <= 1
  {
    if reader.dataReceived then [] else [DataReceived]
  }

  /** The `switch` on the first character of a new input: the robot state
      after it and the signals it produced, or `None` when parsing the angle
      throws. */
  function Dispatch(robot: Cannon.Robot, input: string): (d: Option<(Cannon.Robot, seq<Signal>)>)
    requires |input| >= 1
    ensures d.None? <==> input[0] == 'a' && ParseInt(input[1..]).None?
    ensures input[0] !in "aft" && d.Some? ==> d.value.0 == robot
    ensures input[0] !in DATA_TYPES || input[0] in "z -" ==> d == Some((robot, []))
    ensures input[0] == 'i' ==> d == Some((robot, [ScoreIR(input[1..])]))
    ensures input[0] == 'c' ==> d == Some((robot, [ScoreColor(input[1..])]))
    ensures d.Some? ==> DataReceived !in d.value.1
    ensures input[0] == 'a' && d.Some? ==>
              var o := Cannon.SetCurrentAngle(robot, ParseInt(input[1..]).value);
              d.value == (o.robot, Lift(o.effects))
    ensures input[0] == 'f' ==>
              var o := Cannon.ShotFinished(robot);
              d == Some((o.robot, Lift(o.effects)))
    ensures input[0] == 't' ==>
              var o := Cannon.SetAngleTurnInProgress(robot, false);
              d == Some((o.robot, Lift(o.effects)))
  {
    match input[0]
    case 'a' =>
      (match ParseInt(input[1..])
       case None => None
       case Some(n) =>
         var o := Cannon.SetCurrentAngle(robot, n);
         Some((o.robot, Lift(o.effects))))
    case 'i' => Some((robot, [ScoreIR(input[1..])]))
    case 'c' => Some((robot, [ScoreColor(input[1..])]))
    case 'f' =>
      var o := Cannon.ShotFinished(robot);
      Some((o.robot, Lift(o.effects)))
    case 't' =>
      var o := Cannon.SetAngleTurnInProgress(robot, false);
      Some((o.robot, Lift(o.effects)))
    case _ => Some((robot, []))
  }

  /** One iteration of the reader loop on the string `received`. */
  function Step(reader: Reader, robot: Cannon.Robot, received: string): (s: Iteration)
    ensures received == reader.previousInput ==>
              && s.Stepped?
              && s.robot == robot
              && s.reader.previousInput == reader.previousInput
              && s.signals == (if reader.dataReceived then [] else [DataReceived])
    ensures s.Crashed? <==>
              received != reader.previousInput &&
              (|received| == 0 || (received[0] == 'a' && ParseInt(received[1..]).None?))
    ensures s.Stepped? ==> s.reader.previousInput == received && s.reader.input == received
    ensures s.Stepped? ==> s.reader.dataReceived
    ensures s.Stepped? ==> (DataReceived in s.signals <==> !reader.dataReceived)
    ensures s.Stepped? && |received| >= 1 && received[0] !in "aft" ==> s.robot == robot
    ensures s.Stepped? && received != reader.previousInput ==>
              && |received| >= 1
              && Dispatch(robot, received) == Some((s.robot, s.signals[..|s.signals| - |FirstSignal(reader)|]))
              && s.signals == Dispatch(robot, received).value.1 + FirstSignal(reader)
  {
    var first := FirstSignal(reader);
    if received == reader.previousInput then
      Stepped(reader.(input := received, dataReceived := true), robot, first)
    else if |received| == 0 then
      Crashed
    else
      match Dispatch(robot, received)
      case None => Crashed
      case Some((r, signals)) => Stepped(Reader(received, received, true), r, signals + first)
  }

  /** An angle report is handed to `setCurrentAngle` with the integer the
      robot rendered, and what that emits (a stop at a limit, the indicator
      update) is handed on to the controller in order. */
  lemma AngleReportDispatched(reader: Reader, robot: Cannon.Robot, n: Int32)
    requires "a" + IntToDecimal(n) != reader.previousInput
    ensures Step(reader, robot, "a" + IntToDecimal(n)).Stepped?
    ensures Step(reader, robot, "a" + IntToDecimal(n)).robot == Cannon.SetCurrentAngle(robot, n).robot
    ensures Step(reader, robot, "a" + IntToDecimal(n)).signals ==
              Lift(Cannon.SetCurrentAngle(robot, n).effects) + FirstSignal(reader)
    ensures Robot(Cannon.Send(PcWriter.StopTurning)) in Step(reader, robot, "a" + IntToDecimal(n)).signals <==>
              (robot.currentAngle >= Cannon.LIMIT_ANGLE_MAX && n > robot.currentAngle) ||
              (robot.currentAngle <= Cannon.LIMIT_ANGLE_MIN && n < robot.currentAngle)
  {
    ParseTaggedPayload('a', n);
    var o := Cannon.SetCurrentAngle(robot, n);
    var s := Step(reader, robot, "a" + IntToDecimal(n)).signals;
    assert s == Lift(o.effects) + FirstSignal(reader);
    LiftMember(o.effects, Cannon.Send(PcWriter.StopTurning));
  }

  /** The two acknowledgements clear the matching busy flag, and what the
      cannon then emits (notably the round-over signal) reaches the
      controller in order. */
  lemma AcksDispatched(reader: Reader, robot: Cannon.Robot)
    ensures "f" != reader.previousInput ==>
              && Step(reader, robot, "f").robot == Cannon.ShotFinished(robot).robot
              && Step(reader, robot, "f").signals == Lift(Cannon.ShotFinished(robot).effects) + FirstSignal(reader)
    ensures "t" != reader.previousInput ==>
              && Step(reader, robot, "t").robot == Cannon.SetAngleTurnInProgress(robot, false).robot
              && Step(reader, robot, "t").signals ==
                   Lift(Cannon.SetAngleTurnInProgress(robot, false).effects) + FirstSignal(reader)
  {
  }

  /** The round is over on a shot acknowledgement exactly when no turn is
      running and no ball is left, and on a turn acknowledgement exactly
      when no shot is running and no ball is left. */
  lemma AckEndsRound(reader: Reader, robot: Cannon.Robot)
    ensures "f" != reader.previousInput ==>
              (Robot(Cannon.EndGame) in Step(reader, robot, "f").signals <==>
                 !robot.angleTurnInProgress && robot.ballsLeft < 1)
    ensures "t" != reader.previousInput ==>
              (Robot(Cannon.EndGame) in Step(reader, robot, "t").signals <==>
                 !robot.shootingInProgress && robot.ballsLeft < 1)
  {
    var f := Cannon.ShotFinished(robot);
    var t := Cannon.SetAngleTurnInProgress(robot, false);
    if "f" != reader.previousInput {
      LiftMember(f.effects, Cannon.EndGame);
    }
    if "t" != reader.previousInput {
      LiftMember(t.effects, Cannon.EndGame);
    }
  }

  /** An effect is handed on iff the cannon emitted it. */
  lemma LiftMember(effects: seq<Cannon.Effect>, e: Cannon.Effect)
    ensures Robot(e) in Lift(effects) <==> e in effects
  {
    if e in effects {
      var i :| 0 <= i < |effects| && effects[i] == e;
      assert Lift(effects)[i] == Robot(e);
    }
  }

  /** A shot acknowledgement while the angle turn is still running leaves
      control disabled; the turn acknowledgement then enables it. */
  lemma ShotAckWhileTurning(reader: Reader, robot: Cannon.Robot)
    requires robot.angleTurnInProgress && reader.previousInput != "f"
    ensures Step(reader, robot, "f").Stepped?
    ensures !Step(reader, robot, "f").robot.shootingInProgress
    ensures !Step(reader, robot, "f").robot.robotControlEnabled
    ensures Step(Step(reader, robot, "f").reader, Step(reader, robot, "f").robot, "t").robot.robotControlEnabled
  {
  }

  /** The state of the reader loop after a sequence of inputs. */
  datatype Trace = Trace(reader: Reader, robot: Cannon.Robot, signals: seq<Signal>, alive: bool)

  /** The reader loop over successive reads. The thread survives all of them
      or dies at the first crash; a surviving reader remembers the last input
      and has signalled that data arrived. */
  function Run(reader: Reader, robot: Cannon.Robot, inputs: seq<string>): (t: Trace)
    ensures inputs == [] ==> t == Trace(reader, robot, [], true)
    ensures !t.alive ==> inputs != []
    ensures t.alive && inputs != [] ==>
              t.reader.previousInput == inputs[|inputs| - 1] && t.reader.dataReceived
    decreases |inputs|
  {
    if inputs == [] then Trace(reader, robot, [], true)
    else
      match Step(reader, robot, inputs[0])
      case Crashed => Trace(reader, robot, [], false)
      case Stepped(r, b, signals) =>
        var t := Run(r, b, inputs[1..]);
        t.(signals := signals + t.signals)
  }

  function DataReceivedCount(signals: seq<Signal>): nat {
    if signals == [] then 0
    else (if signals[0] == DataReceived then 1 else 0) + DataReceivedCount(signals[1..])
  }

  lemma {:induction false} DataReceivedCountAppend(a: seq<Signal>, b: seq<Signal>)
    ensures DataReceivedCount(a + b) == DataReceivedCount(a) + DataReceivedCount(b)
    decreases |a|
  {
    if a == [] {
      assert a + b == b;
    } else {
      assert (a + b)[1..] == a[1..] + b;
      DataReceivedCountAppend(a[1..], b);
    }
  }

  lemma {:induction false} StepSignalsCount(reader: Reader, robot: Cannon.Robot, received: string)
    requires Step(reader, robot, received).Stepped?
    ensures DataReceivedCount(Step(reader, robot, received).signals) == if reader.dataReceived then 0 else 1
  {
    var s := Step(reader, robot, received);
    var first := if reader.dataReceived then [] else [DataReceived];
    if received != reader.previousInput {
      var d := Dispatch(robot, received);
      assert DataReceived !in d.value.1;
      DataReceivedCountAppend(d.value.1, first);
      NoDataReceived(d.value.1);
    }
  }

  lemma {:induction false} NoDataReceived(signals: seq<Signal>)
    requires DataReceived !in signals
    ensures DataReceivedCount(signals) == 0
    decreases |signals|
  {
    if signals != [] {
      NoDataReceived(signals[1..]);
    }
  }

  /** `controller.dataReceived` is signalled at most once per reader, and
      only by a reader that has not signalled it before. */
  lemma {:induction false} DataReceivedAtMostOnce(reader: Reader, robot: Cannon.Robot, inputs: seq<string>)
    ensures DataReceivedCount(Run(reader, robot, inputs).signals) <= (if reader.dataReceived then 0 else 1)
    ensures Run(reader, robot, inputs).alive && inputs != [] ==>
              DataReceivedCount(Run(reader, robot, inputs).signals) == (if reader.dataReceived then 0 else 1)
    decreases |inputs|
  {
    if inputs != [] {
      var s := Step(reader, robot, inputs[0]);
      if s.Stepped? {
        StepSignalsCount(reader, robot, inputs[0]);
        var t := Run(s.reader, s.robot, inputs[1..]);
        DataReceivedAtMostOnce(s.reader, s.robot, inputs[1..]);
        DataReceivedCountAppend(s.signals, t.signals);
        if t.alive && inputs[1..] != [] {
          assert DataReceivedCount(t.signals) == 0;
        } else if inputs[1..] == [] {
          assert t.signals == [];
        }
      }
    }
  }
}

=== FILE: pc_writer.dfy ===
/** The PC's command writer (`game.model.DataWriterThread`): the commands the
    game can queue for the robot, their text on the wire, and the buffer
    clear. The send loop itself is `Outbox.Step`. */
module PcWriter {
  import opened Wire
  import Outbox

  /** One enqueue method of the writer each. */
  datatype Command =
    | TurnLeft
    | TurnRight
    | StopTurning
    | ShootHigh
    | ShootLow
    | TimeLeft(seconds: int)
    | TurnToAngle(angle: int)
    | MaxIRDistance(distance: int)
      /** The red threshold rendered by `Double.toString`, kept as text. */
    | MinRedValue(decimal: string)
    | ClearBufferCommand

  /** The identifier character a command starts with on the wire. */
  function Id(c: Command): char {
    match c
    case TurnLeft => 'l'
    case TurnRight => 'r'
    case StopTurning => 's'
    case ShootHigh => 'h'
    case ShootLow => 'w'
    case TimeLeft(n) => IntToDecimal(n)[0]
    case TurnToAngle(_) => 'a'
    case MaxIRDistance(_) => 'i'
    case MinRedValue(_) => 'c'
    case ClearBufferCommand => 'z'
  }

  /** The string the writer queues for a command: its identifier, then any
      payload in decimal (`"" + id + n` for an `int` payload). */
  function Encode(c: Command): (s: string)
    ensures |s| >= 1 && s[0] == Id(c)
    ensures s[0] != '!' && s != Outbox.SENTINEL
    ensures c.TimeLeft? && 0 <= c.seconds <= 9 ==> s == [DigitChar(c.seconds)]
  {
    match c
    case TurnLeft => "l"
    case TurnRight => "r"
    case StopTurning => "s"
    case ShootHigh => "h"
    case ShootLow => "w"
    case TimeLeft(n) => IntToDecimal(n)
    case TurnToAngle(n) => "a" + IntToDecimal(n)
    case MaxIRDistance(n) => "i" + IntToDecimal(n)
    case MinRedValue(d) => "c" + d
    case ClearBufferCommand => "z"
  }

  /** The payload of an angle or distance command reads back, with
      `Integer.parseInt`, as the `int` the command carries. */
  lemma PayloadParsesBack(c: Command)
    requires c.TurnToAngle? || c.MaxIRDistance?
    requires InInt32(if c.TurnToAngle? then c.angle else c.distance)
    ensures ParseInt(Encode(c)[1..]) == Some(if c.TurnToAngle? then c.angle else c.distance)
  {
    if c.TurnToAngle? {
      ParseTaggedPayload('a', c.angle);
    } else {
      ParseTaggedPayload('i', c.distance);
    }
  }

  /** A new writer: empty buffer, marker "!". */
  function New(): (w: Outbox.Outbox)
    ensures w.queue == [] && w.last == "!"
  {
    Outbox.Empty()
  }

  /** Any command method: appends exactly its string to the buffer and leaves
      the last-sent marker alone. */
  function Issue(w: Outbox.Outbox, c: Command): (r: Outbox.Outbox)
    ensures |r.queue| == |w.queue| + 1
    ensures r.queue[..|w.queue|] == w.queue && r.queue[|w.queue|] == Encode(c)
    ensures r.last == w.last
  {
    Outbox.Push(w, Encode(c))
  }

  /** `clearBuffer`: drops every queued command and forgets the last one
      written. */
  function ClearBuffer(w: Outbox.Outbox): (r: Outbox.Outbox)
    ensures r.queue == [] && r.last == "!"
  {
    Outbox.Empty()
  }

  /** No command string equals the marker, so after a clear the next command
      queued is always written. */
  lemma ClearThenIssueSends(w: Outbox.Outbox, c: Command)
    ensures Outbox.Step(Issue(ClearBuffer(w), c)).wrote == Some(Encode(c))
  {
  }

  /** A held key: the same command queued twice with no step between is
      written once. */
  lemma DoubleIssueSentOnce(w: Outbox.Outbox, c: Command)
    requires w.queue == [] && w.last != Encode(c)
    ensures Outbox.Drain(Issue(Issue(w, c), c)) == [Encode(c)]
  {
  }

  /** Left, left, stop queued on a fresh writer: two strings are written. */
  lemma LeftLeftStop()
    ensures Outbox.Drain(Issue(Issue(Issue(New(), TurnLeft), TurnLeft), StopTurning)) == ["l", "s"]
  {
  }
}

=== FILE: robot_reader.dfy ===
/** The robot's command reader (`robot.DataReaderThread.parseCommand`): the
    first character of each string received from the PC selects what the
    motors, the speaker and the sensor thresholds do, and which
    acknowledgement goes back through the robot's writer. Hardware calls are
    abstract actions, in the order the source makes them. */
module RobotReader {
  import opened Wire
  import PcWriter
  import RobotWriter

  /** Degrees the shooting motor turns for one shot; the sign picks high or
      low. */
  const FIRE_DEGREES: int := 1080

  datatype Action =
    | TurnForward                         // turningMotor.forward()
    | TurnBackward                        // turningMotor.backward()
    | TurnStop                            // turningMotor.stop()
    | TurnStopNoWait                      // turningMotor.stop(true)
    | TurnRotateTo(angle: int)            // turningMotor.rotateTo(angle)
    | ShooterRotate(degrees: int)         // shootingMotor.rotate(degrees)
    | PlayTone(frequency: int, duration: int)
    | SetIRDistance(distance: int)        // InfraredSensor.MAX_IR_DISTANCE
    | SetMinRed(decimal: string)          // ColorSensor.MINIMUM_RED_VALUE, unparsed
    | AckShot                             // dataWriter.finishedShooting()
    | AckTurn                             // dataWriter.finishedTurning()
    | ClearWriter                         // dataWriter.clearBuffer()

  /** `parseCommand`. `None` is an exception the reader loop does not catch:
      `charAt(0)` on the empty string, or `Integer.parseInt` on a bad
      payload; it ends the reader thread. */
  function ParseCommand(input: string): (r: Option<seq<Action>>)
    ensures r.None? <==> |input| == 0 || (input[0] in "ai" && ParseInt(input[1..]).None?)
    ensures |input| > 0 && '0' <= input[0] <= '5' ==>
              r == Some([PlayTone(1000 - 100 * DigitValue(input[0]), 350 - 50 * DigitValue(input[0]))])
    ensures |input| > 0 && input[0] !in "srlwhai012345cz" ==> r == Some([])
    ensures r.Some? ==> (AckShot in r.value <==> input[0] in "hw")
    ensures r.Some? ==> (AckTurn in r.value <==> input[0] == 'a')
  {
    if |input| == 0 then None
    else
      match input[0]
      case 's' => Some([TurnStop])
      case 'l' => Some([TurnForward])
      case 'r' => Some([TurnBackward])
      case 'w' => Some([TurnStopNoWait, ShooterRotate(FIRE_DEGREES), AckShot, TurnStop])
      case 'h' => Some([TurnStopNoWait, ShooterRotate(-FIRE_DEGREES), AckShot, TurnStop])
      case 'a' =>
        (match ParseInt(input[1..])
         case None => None
         case Some(n) => Some([TurnRotateTo(n), TurnStop, AckTurn]))
      case '5' => Some([PlayTone(500, 100)])
      case '4' => Some([PlayTone(600, 150)])
      case '3' => Some([PlayTone(700, 200)])
      case '2' => Some([PlayTone(800, 250)])
      case '1' => Some([PlayTone(900, 300)])
      case '0' => Some([PlayTone(1000, 350)])
      case 'i' =>
        (match ParseInt(input[1..])
         case None => None
         case Some(n) => Some([SetIRDistance(n)]))
      case 'c' => Some([SetMinRed(input[1..])])
      case ' ' => Some([])
      case 'z' => Some([ClearWriter])
      case _ => Some([])
  }

  /** The acknowledgements the actions queue, in order. */
  function Acks(actions: seq<Action>): seq<string>
    decreases |actions|
  {
    if actions == [] then []
    else
      (match actions[0]
       case AckShot => ["f"]
       case AckTurn => ["t"]
       case _ => []) + Acks(actions[1..])
  }

  /** The effect of the actions on the robot's writer. */
  function ApplyToWriter(w: RobotWriter.Writer, actions: seq<Action>): RobotWriter.Writer
    decreases |actions|
  {
    if actions == [] then w
    else
      var w1 :=
        match actions[0]
        case AckShot => RobotWriter.FinishedShooting(w)
        case AckTurn => RobotWriter.FinishedTurning(w)
        case ClearWriter => RobotWriter.ClearBuffer(w)
        case _ => w;
      ApplyToWriter(w1, actions[1..])
  }

  /** Without a clear, the actions append their acknowledgements to the
      writer's queue and change nothing else; after a clear, both markers
      are back at "!". */
  lemma {:induction false} WriterEffect(w: RobotWriter.Writer, actions: seq<Action>)
    ensures ClearWriter !in actions ==>
              ApplyToWriter(w, actions) == w.(outbox := w.outbox.(queue := w.outbox.queue + Acks(actions)))
    ensures ClearWriter in actions ==>
              ApplyToWriter(w, actions).outbox.last == "!" && ApplyToWriter(w, actions).prevAngle == "!"
    decreases |actions|
  {
    if actions != [] {
      var a, rest := actions[0], actions[1..];
      assert actions == [a] + rest;
      var w1 :=
        match a
        case AckShot => RobotWriter.FinishedShooting(w)
        case AckTurn => RobotWriter.FinishedTurning(w)
        case ClearWriter => RobotWriter.ClearBuffer(w)
        case _ => w;
      assert ApplyToWriter(w, actions) == ApplyToWriter(w1, rest);
      WriterEffect(w1, rest);
      if ClearWriter !in actions {
        var ack := match a case AckShot => ["f"] case AckTurn => ["t"] case _ => [];
        assert Acks(actions) == ack + Acks(rest);
        assert w1.outbox.queue == w.outbox.queue + ack;
        assert w.outbox.queue + ack + Acks(rest) == w.outbox.queue + Acks(actions);
      }
    }
  }

  /** Hardware-only actions leave the writer alone. */
  lemma {:induction false} HardwareOnly(w: RobotWriter.Writer, actions: seq<Action>)
    requires forall a :: a in actions ==> !a.AckShot? && !a.AckTurn? && !a.ClearWriter?
    ensures ApplyToWriter(w, actions) == w
    decreases |actions|
  {
    if actions != [] {
      HardwareOnly(w, actions[1..]);
    }
  }

  /** A fire command: stop turning, rotate the shooter one way or the other,
      then exactly one "f" queued. */
  lemma FireAcknowledged(w: RobotWriter.Writer, c: char)
    requires c in "hw"
    ensures ParseCommand([c]).Some?
    ensures ParseCommand([c]).value[0] == TurnStopNoWait
    ensures ShooterRotate(if c == 'h' then -FIRE_DEGREES else FIRE_DEGREES) in ParseCommand([c]).value
    ensures ApplyToWriter(w, ParseCommand([c]).value).outbox.queue == w.outbox.queue + ["f"]
    ensures ApplyToWriter(w, ParseCommand([c]).value).prevAngle == w.prevAngle
  {
    var acts := ParseCommand([c]).value;
    var w1 := RobotWriter.FinishedShooting(w);
    assert acts[1..][1..][1..] == [TurnStop];
    assert ApplyToWriter(w1, [TurnStop]) == w1;
    assert ApplyToWriter(w, acts[1..][1..]) == w1;
    assert ApplyToWriter(w, acts) == w1;
  }

  /** An angle command: rotate to the angle, stop, then exactly one "t"
      queued. */
  lemma AngleAcknowledged(w: RobotWriter.Writer, n: Int32)
    ensures ParseCommand("a" + IntToDecimal(n)) == Some([TurnRotateTo(n), TurnStop, AckTurn])
    ensures ApplyToWriter(w, [TurnRotateTo(n), TurnStop, AckTurn]).outbox.queue == w.outbox.queue + ["t"]
  {
    ParseTaggedPayload('a', n);
    ParsesAs("a" + IntToDecimal(n), 'a', n);
    var acts := [TurnRotateTo(n), TurnStop, AckTurn];
    assert acts[1..][1..] == [AckTurn];
    assert ApplyToWriter(w, acts) == ApplyToWriter(w, [AckTurn]);
  }

  /** Turning commands drive the motor and queue nothing. */
  lemma MotorCommandsSilent(w: RobotWriter.Writer, c: char)
    requires c in "lrs"
    ensures ParseCommand([c]) == Some([if c == 'l' then TurnForward else if c == 'r' then TurnBackward else TurnStop])
    ensures ApplyToWriter(w, ParseCommand([c]).value) == w
  {
  }

  /** "z" clears the robot's writer, markers included. */
  lemma ClearCommand(w: RobotWriter.Writer)
    ensures ApplyToWriter(w, ParseCommand("z").value) == RobotWriter.New()
  {
  }

  /** What the PC means by each command it sends (payloads in range). */
  ghost predicate Understood(c: PcWriter.Command, actions: seq<Action>) {
    match c
    case TurnLeft => actions == [TurnForward]
    case TurnRight => actions == [TurnBackward]
    case StopTurning => actions == [TurnStop]
    case ShootHigh => ShooterRotate(-FIRE_DEGREES) in actions && AckShot in actions
    case ShootLow => ShooterRotate(FIRE_DEGREES) in actions && AckShot in actions
    case TimeLeft(k) => actions == [PlayTone(1000 - 100 * k, 350 - 50 * k)]
    case TurnToAngle(n) => TurnRotateTo(n) in actions && AckTurn in actions
    case MaxIRDistance(n) => actions == [SetIRDistance(n)]
    case MinRedValue(d) => actions == [SetMinRed(d)]
    case ClearBufferCommand => actions == [ClearWriter]
  }

  ghost predicate InRange(c: PcWriter.Command) {
    match c
    case TimeLeft(k) => 0 <= k <= 5
    case TurnToAngle(n) => InInt32(n)
    case MaxIRDistance(n) => InInt32(n)
    case _ => true
  }

  /** Round trip: every command the PC writer encodes is parsed by the robot
      into the action it stands for. */
  lemma CommandRoundTrip(c: PcWriter.Command)
    requires InRange(c)
    ensures ParseCommand(PcWriter.Encode(c)).Some?
    ensures Understood(c, ParseCommand(PcWriter.Encode(c)).value)
  {
    match c
    case TimeLeft(k) => ToneRoundTrip(k);
    case TurnToAngle(n) => AngleRoundTrip(n);
    case MaxIRDistance(n) => DistanceRoundTrip(n);
    case MinRedValue(d) => RedRoundTrip(d);
    case _ => PlainRoundTrip(c);
  }

  lemma PlainRoundTrip(c: PcWriter.Command)
    requires c.TurnLeft? || c.TurnRight? || c.StopTurning? || c.ShootHigh? || c.ShootLow? || c.ClearBufferCommand?
    ensures ParseCommand(PcWriter.Encode(c)).Some?
    ensures Understood(c, ParseCommand(PcWriter.Encode(c)).value)
  {
  }

  lemma ToneRoundTrip(k: int)
    requires 0 <= k <= 5
    ensures ParseCommand(PcWriter.Encode(PcWriter.TimeLeft(k))) == Some([PlayTone(1000 - 100 * k, 350 - 50 * k)])
  {
  }

  lemma AngleRoundTrip(n: Int32)
    ensures ParseCommand(PcWriter.Encode(PcWriter.TurnToAngle(n))) == Some([TurnRotateTo(n), TurnStop, AckTurn])
  {
    var s := PcWriter.Encode(PcWriter.TurnToAngle(n));
    PcWriter.PayloadParsesBack(PcWriter.TurnToAngle(n));
    ParsesAs(s, 'a', n);
  }

  lemma DistanceRoundTrip(n: Int32)
    ensures ParseCommand(PcWriter.Encode(PcWriter.MaxIRDistance(n))) == Some([SetIRDistance(n)])
  {
    var s := PcWriter.Encode(PcWriter.MaxIRDistance(n));
    PcWriter.PayloadParsesBack(PcWriter.MaxIRDistance(n));
    ParsesAs(s, 'i', n);
  }

  /** A well-formed "a" or "i" command. */
  lemma ParsesAs(s: string, id: char, n: Int32)
    requires id in "ai" && |s| >= 1 && s[0] == id && ParseInt(s[1..]) == Some(n)
    ensures ParseCommand(s) == Some(if id == 'a' then [TurnRotateTo(n), TurnStop, AckTurn] else [SetIRDistance(n)])
  {
  }

  lemma RedRoundTrip(d: string)
    ensures ParseCommand(PcWriter.Encode(PcWriter.MinRedValue(d))) == Some([SetMinRed(d)])
  {
  }

  /** A countdown of ten or more is read by its first digit only. */
  lemma TwoDigitCountdownReadAsFirstDigit()
    ensures ParseCommand(PcWriter.Encode(PcWriter.TimeLeft(10))) == Some([PlayTone(900, 300)])
  {
  }
}

=== FILE: robot_writer.dfy ===
/** The robot's data writer (`robot.DataWriterThread`): it reports the turning
    motor's tacho count when it changes, queues the two completion
    acknowledgements, and sends with the same de-duplicating step as the
    PC's writer (`Outbox.Step`). */
module RobotWriter {
  import opened Wire
  import Outbox

  datatype Writer = Writer(outbox: Outbox.Outbox, prevAngle: string)

  /** Both constructors: nothing queued, both markers "!". */
  function New(): (w: Writer)
    ensures w.outbox.queue == [] && w.outbox.last == "!" && w.prevAngle == "!"
  {
    Writer(Outbox.Empty(), Outbox.SENTINEL)
  }

  /** `writeAngle`: queue "a" + the tacho text only when it changed since the
      last report. */
  function WriteAngle(w: Writer, angle: string): (r: Writer)
    ensures r.prevAngle == angle
    ensures r.outbox.last == w.outbox.last
    ensures angle != w.prevAngle ==> r.outbox.queue == w.outbox.queue + ["a" + angle]
    ensures angle == w.prevAngle ==> r.outbox.queue == w.outbox.queue
  {
    if angle != w.prevAngle then Writer(Outbox.Push(w.outbox, "a" + angle), angle) else w
  }

  /** `finishedShooting`. */
  function FinishedShooting(w: Writer): (r: Writer)
    ensures r.outbox == Outbox.Push(w.outbox, "f") && r.prevAngle == w.prevAngle
  {
    w.(outbox := Outbox.Push(w.outbox, "f"))
  }

  /** `finishedTurning`. */
  function FinishedTurning(w: Writer): (r: Writer)
    ensures r.outbox == Outbox.Push(w.outbox, "t") && r.prevAngle == w.prevAngle
  {
    w.(outbox := Outbox.Push(w.outbox, "t"))
  }

  /** `clearBuffer`: empties the queue and resets both markers. */
  function ClearBuffer(w: Writer): (r: Writer)
    ensures r == New()
  {
    New()
  }

  /** The result of one loop iteration: the writer after it and what was
      written to the socket. */
  datatype Iteration = Iteration(writer: Writer, wrote: Option<string>)

  /** One iteration of `run`: sample the tacho count, then one send step. */
  function RunIteration(w: Writer, tacho: int): (it: Iteration)
    ensures it.writer.prevAngle == IntToDecimal(tacho)
    ensures it.wrote.Some? ==> it.wrote.value != w.outbox.last && it.writer.outbox.last == it.wrote.value
    ensures var q := WriteAngle(w, IntToDecimal(tacho)).outbox;
            && (q.queue == [] ==> it.wrote == None && it.writer.outbox == q)
            && (q.queue != [] ==>
                  && it.writer.outbox.queue == q.queue[1..]
                  && (it.wrote.Some? <==> q.queue[0] != w.outbox.last)
                  && (it.wrote.Some? ==> it.wrote.value == q.queue[0]))
  {
    var sampled := WriteAngle(w, IntToDecimal(tacho));
    var sent := Outbox.Step(sampled.outbox);
    Iteration(Writer(sent.rest, sampled.prevAngle), sent.wrote)
  }

  /** `writeAngle` applied to successive samples, with no send in between. */
  function WriteAngles(w: Writer, samples: seq<string>): Writer
    decreases |samples|
  {
    if samples == [] then w else WriteAngles(WriteAngle(w, samples[0]), samples[1..])
  }

  /** Each sample as the angle report it becomes. */
  function Tag(samples: seq<string>): seq<string>
    decreases |samples|
  {
    if samples == [] then [] else ["a" + samples[0]] + Tag(samples[1..])
  }

  /** The angle filter is the same run-collapse as the send step: the
      reports queued are the changes in the sampled tacho text. */
  lemma {:induction false} AngleReportsAreChanges(w: Writer, samples: seq<string>)
    ensures WriteAngles(w, samples).outbox.queue ==
              w.outbox.queue + Tag(Outbox.Uniq([w.prevAngle] + samples)[1..])
    ensures WriteAngles(w, samples).outbox.last == w.outbox.last
    decreases |samples|
  {
    var p := w.prevAngle;
    if samples == [] {
      assert [p] + samples == [p];
      assert Tag([]) == [];
    } else {
      var x, t := samples[0], samples[1..];
      var w1 := WriteAngle(w, x);
      assert WriteAngles(w, samples) == WriteAngles(w1, t);
      AngleReportsAreChanges(w1, t);
      assert [x] + t == samples;
      var u := Outbox.Uniq(samples)[1..];
      assert ([p] + samples)[1..] == samples;
      Outbox.UniqCons(p, samples);
      if x != p {
        assert Outbox.Uniq(samples) == [x] + u;
        TagCons(x, u);
      }
    }
  }

  lemma TagCons(x: string, u: seq<string>)
    ensures Tag([x] + u) == ["a" + x] + Tag(u)
  {
  }

  /** After a clear the next sample is reported even if the angle did not
      change. */
  lemma ClearedReportsAngle(w: Writer, tacho: int)
    ensures RunIteration(ClearBuffer(w), tacho).wrote == Some("a" + IntToDecimal(tacho))
  {
  }
}

=== FILE: session.dfy ===
/** What `game.model.EV3Robot` owns besides the robot fields: the reader and
    writer threads of the link. `reset` starts a round with fresh ones. */
module Session {
  import opened Wire
  import Cannon
  import PcReader
  import PcWriter
  import Outbox

  datatype Session = Session(robot: Cannon.Robot, reader: PcReader.Reader, writer: Outbox.Outbox)

  /** `reset(player)`: the robot fields of a new round, then
      `createDataTransferThreads`, which replaces the reader and the writer
      with newly constructed ones. */
  function Reset(s: Session): (s': Session)
    ensures s'.robot == Cannon.Reset(s.robot)
    ensures s'.writer.queue == [] && s'.writer.last == Outbox.SENTINEL
    ensures s'.reader.input == " " && s'.reader.previousInput == "-" && !s'.reader.dataReceived
  {
    Session(Cannon.Reset(s.robot), PcReader.New(), PcWriter.New())
  }

  /** A reset forgets the previous round's link history: the first command
      queued afterwards is written even if it was the last one written
      before, the commands still queued are gone, and the new reader signals
      "data received" again on its first surviving iteration. */
  lemma ResetForgetsHistory(s: Session, c: PcWriter.Command, received: string)
    ensures Outbox.Step(PcWriter.Issue(Reset(s).writer, c)).wrote == Some(PcWriter.Encode(c))
    ensures Outbox.Drain(Reset(s).writer) == []
    ensures PcReader.Step(Reset(s).reader, Reset(s).robot, received).Stepped? ==>
              PcReader.DataReceived in PcReader.Step(Reset(s).reader, Reset(s).robot, received).signals
    ensures Reset(Reset(s)) == Reset(s)
  {
  }
}

=== FILE: wire.dfy ===
/** Text conventions shared by both ends of the link: Java `int` values, their
    decimal rendering (`String.valueOf(int)`, and `"a" + n` string
    concatenation) and their parsing (`Integer.parseInt`). Messages are plain
    strings whose first character is the command identifier. */
module Wire {

  datatype Option<+T> = None | Some(value: T)

  /** A Java `int`. */
  type Int32 = x: int | InInt32(x)

  predicate InInt32(x: int) {
    -0x8000_0000 <= x < 0x8000_0000
  }

  predicate IsDigit(c: char) {
    '0' <= c <= '9'
  }

  predicate AllDigits(s: string) {
    forall i :: 0 <= i < |s| ==> IsDigit(s[i])
  }

  function DigitChar(d: int): (c: char)
    requires 0 <= d < 10
    ensures IsDigit(c)
    ensures DigitValue(c) == d
  {
    "0123456789"[d]
  }

  function DigitValue(c: char): int
    requires IsDigit(c)
  {
    c as int - '0' as int
  }

  /** Decimal digits of a natural number, most significant first, no
      leading zeros. */
  function NatToDecimal(n: nat): (s: string)
    ensures 1 <= |s|
    ensures AllDigits(s)
    ensures |s| > 1 ==> s[0] != '0'
    decreases n
  {
    if n < 10 then [DigitChar(n)] else NatToDecimal(n / 10) + [DigitChar(n % 10)]
  }

  /** `String.valueOf(int)`: an optional minus sign followed by the digits of
      the magnitude. */
  function IntToDecimal(n: int): (s: string)
    ensures 1 <= |s|
    ensures s[0] == '-' <==> n < 0
    ensures n >= 0 ==> AllDigits(s)
    ensures n < 0 ==> 2 <= |s| && AllDigits(s[1..])
  {
    if n < 0 then "-" + NatToDecimal(-n) else NatToDecimal(n)
  }

  /** The value of a string of decimal digits, read most significant first. */
  function DigitsValue(s: string): nat
    requires AllDigits(s)
  {
    if |s| == 0 then 0 else DigitsValue(s[..|s| - 1]) * 10 + DigitValue(s[|s| - 1])
  }

  /** `Integer.parseInt(s)`: an optional sign then at least one digit, and the
      value must fit in an `int`; anything else is a `NumberFormatException`,
      modelled as `None`. */
  function ParseInt(s: string): (r: Option<Int32>)
    ensures |s| == 0 ==> r.None?
    ensures r.Some? <==>
              && |s| > 0
              && var d := if s[0] in "+-" then s[1..] else s;
                 && |d| > 0 && AllDigits(d)
                 && InInt32(if s[0] == '-' then -(DigitsValue(d) as int) else DigitsValue(d))
    ensures r.Some? && s[0] in "+-" ==> AllDigits(s[1..]) && r.value == (if s[0] == '-' then -(DigitsValue(s[1..]) as int) else DigitsValue(s[1..]))
    ensures r.Some? ==> forall i :: 0 < i < |s| ==> IsDigit(s[i])
    ensures r.Some? && r.value < 0 ==> s[0] == '-'
    ensures r.Some? && s[0] !in "+-" ==> AllDigits(s) && r.value == DigitsValue(s)
  {
    if |s| == 0 then None
    else
      var digits := if s[0] == '-' || s[0] == '+' then s[1..] else s;
      if |digits| == 0 || !AllDigits(digits) then None
      else
        var v: int := if s[0] == '-' then -(DigitsValue(digits) as int) else DigitsValue(digits);
        if InInt32(v) then Some(v) else None
  }

  lemma {:induction false} DigitsOfNat(n: nat)
    ensures DigitsValue(NatToDecimal(n)) == n
    decreases n
  {
    if n >= 10 {
      var s := NatToDecimal(n);
      assert s == NatToDecimal(n / 10) + [DigitChar(n % 10)];
      assert s[..|s| - 1] == NatToDecimal(n / 10);
      DigitsOfNat(n / 10);
    }
  }

  /** Parsing the decimal rendering of any `int` gives the `int` back. */
  lemma ParseRendered(n: Int32)
    ensures ParseInt(IntToDecimal(n)) == Some(n)
  {
    var s := IntToDecimal(n);
    if n < 0 {
      var m: nat := -(n as int);
      assert s == "-" + NatToDecimal(m);
      assert s[1..] == NatToDecimal(m);
      DigitsOfNat(m);
      assert DigitsValue(s[1..]) == m;
    } else {
      assert s == NatToDecimal(n);
      assert s[0] != '+' && s[0] != '-';
      DigitsOfNat(n);
    }
  }

  /** `Integer.parseInt` accepts an explicit plus sign and leading zeros. */
  lemma ParseIntSignsAndZeros()
    ensures ParseInt("+7") == Some(7)
    ensures ParseInt("-0012") == Some(-12)
    ensures ParseInt("007") == Some(7)
  {
    var z := "0012";
    DigitsPrefix(z, 1); DigitsPrefix(z, 2); DigitsPrefix(z, 3); DigitsPrefix(z, 4);
    assert z[..4] == z;
    var seven := "007";
    DigitsPrefix(seven, 1); DigitsPrefix(seven, 2); DigitsPrefix(seven, 3);
    assert seven[..3] == seven;
    assert ("+7")[1..] == "7" && ("-0012")[1..] == z;
  }

  /** `Integer.parseInt` accepts the smallest `int` and rejects one past the
      largest. */
  lemma ParseIntRange()
    ensures ParseInt("-2147483648") == Some(-0x8000_0000)
    ensures ParseInt("2147483648") == None
  {
    TwoToThe31();
    assert ("-2147483648")[1..] == "2147483648";
  }

  lemma TwoToThe31()
    ensures AllDigits("2147483648") && DigitsValue("2147483648") == 0x8000_0000
  {
    var big := "2147483648";
    TwoToThe31Prefix();
    DigitsPrefix(big, 6);
    assert DigitsValue(big[..6]) == 214748;
    DigitsPrefix(big, 7);
    assert DigitsValue(big[..7]) == 2147483;
    DigitsPrefix(big, 8);
    assert DigitsValue(big[..8]) == 21474836;
    DigitsPrefix(big, 9);
    assert DigitsValue(big[..9]) == 214748364;
    DigitsPrefix(big, 10);
    assert big[..10] == big;
  }

  lemma TwoToThe31Prefix()
    ensures AllDigits("2147483648") && DigitsValue("2147483648"[..5]) == 21474
  {
    var big := "2147483648";
    DigitsPrefix(big, 1);
    assert DigitsValue(big[..1]) == 2;
    DigitsPrefix(big, 2);
    assert DigitsValue(big[..2]) == 21;
    DigitsPrefix(big, 3);
    assert DigitsValue(big[..3]) == 214;
    DigitsPrefix(big, 4);
    assert DigitsValue(big[..4]) == 2147;
    DigitsPrefix(big, 5);
  }

  /** `Integer.parseInt` rejects a bare sign, the empty string and a
      non-digit. */
  lemma ParseIntRejects()
    ensures ParseInt("-") == None && ParseInt("+") == None && ParseInt("") == None
    ensures ParseInt("1a") == None
  {
    assert ("-")[1..] == [] && ("+")[1..] == [];
    assert !AllDigits("1a") by { assert !IsDigit("1a"[1]); }
  }

  /** Reading one more digit of a digit string. */
  lemma DigitsPrefix(s: string, k: nat)
    requires AllDigits(s) && 0 < k <= |s|
    ensures DigitsValue(s[..k]) == DigitsValue(s[..k - 1]) * 10 + DigitValue(s[k - 1])
  {
    assert s[..k][..k - 1] == s[..k - 1];
  }

  /** Parsing a message payload that follows a one-character identifier. */
  lemma ParseTaggedPayload(id: char, n: Int32)
    ensures ([id] + IntToDecimal(n))[0] == id
    ensures ParseInt(([id] + IntToDecimal(n))[1..]) == Some(n)
  {
    assert ([id] + IntToDecimal(n))[1..] == IntToDecimal(n);
    ParseRendered(n);
  }
}
